=== FILE: README.md ===
# networx — a verified model of the client core

networx is a chat and calling web app. Two people connect by redeeming a
one-time code or scanning a QR code. They then exchange messages in a shared
thread, can place voice or video calls, and get push notifications for new
messages. This project models the core of the app in Dafny and proves
properties of the model:

- the chat state provider: thread list, sidebar, live message and thread
  feeds, opening a thread, sending;
- the code card that issues and redeems connection codes;
- the QR connection flow: parsing, auto-registration, connecting;
- the chat view: grouping by day, the send button, the send handler;
- the session providers (auth and user) over `localStorage`;
- the login page's four-step state machine;
- the call provider: WebRTC peer life cycle and signalling;
- the notification helpers, the service worker, and the edge function that
  sends a push for every new message.

The database, the socket server, the browser APIs and the HTTP backends are
not modelled themselves. Each reply they give is an input to the operation
that receives it. A failure is `Threw(message)` (from `Reply` in
`wrappers.dfy`) or `None`. A JavaScript value that may be `null` or
`undefined` is an `Option`, and `Schema.Truthy` models JavaScript truthiness
on strings.

Components that keep `useState` or `useRef` state are classes. Their fields
are that state, and each handler is a method whose `ensures` states the new
state, usually through a pure function of the old state and the replies. The
lemmas are stated about those functions. Pure helpers (UUID check, QR
parsing, message grouping, URL-safe base64, cache policy, push payloads) are
functions.

## Model

| member | source | states |
|---|---|---|
| AuthContext.ValidUUIDIffHexGroups | src/contexts/AuthContext.tsx:24-27 | An id passes the UUID check exactly when it is five hex groups of lengths 8-4-4-4-12 joined by hyphens. |
| AuthContext.JoinedGroupsAreValid | src/contexts/AuthContext.tsx:24-27 | Any five hex groups of those lengths, joined by hyphens, pass the UUID check. |
| AuthContext.JoinFive | src/contexts/AuthContext.tsx:24-27 | The joined form puts each group and each hyphen at the fixed offsets the check tests. |
| AuthContext.HexGroupHasNoHyphen | src/contexts/AuthContext.tsx:24-27 | A hex group contains no hyphen. |
| AuthContext.IsValidUUID | src/contexts/AuthContext.tsx:24-27 | Definition of the id check: 36 characters, hyphens exactly at positions 8, 13, 18 and 23, hexadecimal digits of either case elsewhere; its properties are the rows above. |
| AuthContext.Saved | src/contexts/AuthContext.tsx:52-61 | Saving a user stores its JSON under "networx_user"; saving none removes all three session keys, "networx_user", "networx_accessToken" and "networx_refreshToken"; every other key keeps its value. |
| AuthContext.Restore | src/contexts/AuthContext.tsx:30-50 | Definition of the mount-time restore: no stored record gives no user; an unreadable one is removed; a parsed user with a non-empty malformed id clears the three session keys; anything else is the user. Its properties are RestoreOutcomes and SaveThenRestore. |
| AuthContext.RestoreOutcomes | src/contexts/AuthContext.tsx:30-50 | A user is restored exactly when the stored text parses and its id is empty or a valid UUID; otherwise a stored user is removed; keys other than the three session keys "networx_user", "networx_accessToken" and "networx_refreshToken" are untouched. |
| AuthContext.RestoreRejectsMalformedId | src/contexts/AuthContext.tsx:37-43 | A stored user whose non-empty id is not a UUID is not restored, and all three session keys, "networx_user", "networx_accessToken" and "networx_refreshToken", are removed. |
| AuthContext.SaveThenRestore | src/contexts/AuthContext.tsx:30-61 | Restoring right after saving a user (with a parser that inverts the serialiser) gives back that user and leaves the store as saved. |
| AuthContext.AuthHeader | src/contexts/AuthContext.tsx:67-70 | A bearer header exists exactly when there is a user with a non-empty access token, and it starts with "Bearer ". |
| AuthContext.AuthHeaderCarriesToken | src/contexts/AuthContext.tsx:67-70 | The token read back from the header is the user's access token. |
| AuthContext.TokenOf | src/contexts/AuthContext.tsx:67-70 | Reads the token back out of a "Bearer " header, the inverse used by AuthHeaderCarriesToken. |
| AuthContext.AuthProvider.constructor | src/contexts/AuthContext.tsx:21 | The provider starts with no user. |
| AuthContext.AuthProvider.RestoreSession | src/contexts/AuthContext.tsx:30-50 | The mount effect sets the store to the restore function's result, and sets the user only when one was restored. |
| AuthContext.AuthProvider.SaveUser | src/contexts/AuthContext.tsx:52-61 | Saving sets the user and updates the store as the save function states. |
| AuthContext.AuthProvider.Logout | src/contexts/AuthContext.tsx:63-65 | Logout clears the user and removes all three session keys, "networx_user", "networx_accessToken" and "networx_refreshToken"; other keys are kept. |
| AuthContext.AuthProvider.GetAuthHeader | src/contexts/AuthContext.tsx:67-70 | The header is the one computed from the current user's token. |
| UserContext.AfterSetUser | src/contexts/UserContext.tsx:28-32 | Setting a user stores its JSON under "networx_user"; setting none removes that key; other keys are unchanged. |
| UserContext.SetUserThenRestore | src/contexts/UserContext.tsx:23-32 | The next restore after a set-user reads back exactly that user (or nothing after setting none), when the parser inverts the serialiser. |
| UserContext.UserProvider.constructor | src/contexts/UserContext.tsx:20 | The provider starts with no user and no navigation. |
| UserContext.UserProvider.RestoreSession | src/contexts/UserContext.tsx:23-26 | The user becomes the parse of the stored text when it parses; the parse failure is reported as a throw exactly when stored text does not parse. |
| UserContext.UserProvider.SetUser | src/contexts/UserContext.tsx:28-32 | The user becomes the given one and the store follows the set-user function. |
| UserContext.UserProvider.Logout | src/contexts/UserContext.tsx:34-37 | Logout clears the user, removes "networx_user" from the store and navigates to "/login". |
| LocalStore.Storage.constructor | src/contexts/AuthContext.tsx:30-50 | The store starts with the given entries. |
| LocalStore.Storage.GetItem | src/contexts/AuthContext.tsx:31-32 | Reading a key gives its value, or none when it is absent. |
| LocalStore.Storage.SetItem | src/contexts/AuthContext.tsx:53-54 | Writing a key sets exactly that key. |
| LocalStore.Storage.RemoveItem | src/contexts/AuthContext.tsx:39-40 | Removing a key deletes exactly that key. |
| Text.TrimStart | src/components/home/ChatView.tsx:84 | The leading-whitespace cut is no longer than the input, does not start with white space, and removes only white space. |
| Text.TrimEnd | src/components/home/ChatView.tsx:84 | The trailing-whitespace cut is no longer than the input, does not end with white space, and removes only white space. |
| Text.TrimStartIsSuffix | src/components/home/ChatView.tsx:84 | What the leading cut keeps is the tail of the input. |
| Text.TrimEndIsPrefix | src/components/home/ChatView.tsx:84 | What the trailing cut keeps is the head of the input. |
| Text.Trim | src/components/home/ChatView.tsx:84 | Definition of `trim()`: both cuts in turn; its properties are the two lemmas below. |
| Text.TrimEmptyIffAllSpace | src/components/home/ChatView.tsx:84 | A trimmed string is empty exactly when the input is all white space, the falsy test the send guards use. |
| Text.TrimNoEdgeSpace | src/components/home/sidebar/CodeCard.tsx:180 | Trimming leaves a string alone when it neither starts nor ends with white space. |
| Text.SplitOn | src/components/QRConnectionFlow.tsx:47-48 | `split` on one character always gives at least one piece. |
| Text.SplitPiecesLackSep | src/components/QRConnectionFlow.tsx:47-48 | No piece of a split contains the separator. |
| Text.JoinSplit | src/components/QRConnectionFlow.tsx:47-48 | Joining the pieces of a split with the separator gives back the input. |
| Text.SplitWithoutSep | src/components/QRConnectionFlow.tsx:47-48 | A string without the separator splits into itself alone. |
| Text.SplitAtFirstSep | src/components/QRConnectionFlow.tsx:47-48 | A separator-free first piece followed by the separator is split off whole. |
| Text.SplitJoin | src/components/QRConnectionFlow.tsx:47-48 | Splitting a join of separator-free pieces gives back the pieces. |
| Text.Take | supabase-push-function.ts:64 | `substring(0, n)` gives the first n characters, or the whole string when shorter, as a prefix. |
| Text.Repeat | src/utils/notifications.ts:125 | `repeat(n)` of one character gives n copies of it. |
| Schema.ThreadsOfPair | src/contexts/ChatContext.tsx:190-196 | The lookup returns exactly the stored threads whose two participants are the given pair, in either order. |
| Schema.ThreadsOfPairSymmetric | src/contexts/ChatContext.tsx:193-195 | The lookup gives the same threads whichever participant is named first. |
| Schema.MaybeSingle | src/contexts/ChatContext.tsx:196 | Definition of `.maybeSingle()`: the row when exactly one matches, otherwise none. |
| Schema.FindPairThread | src/contexts/ChatContext.tsx:190-201 | Definition of the pair lookup: the single thread between the two users, if there is exactly one. Its properties are FindPairThreadSound and InsertedThreadIsFound. |
| Schema.Truthy | src/contexts/ChatContext.tsx:99-100 | Definition of JavaScript truthiness for an optional string: present and non-empty. |
| Schema.Or | src/contexts/ChatContext.tsx:99-100 | Definition of `s \|\| fallback` for an optional string. |
| Schema.FindPairThreadSound | src/contexts/ChatContext.tsx:190-201 | The pair lookup does not depend on the order the pair is named in, and a thread it finds is a stored thread between the two. |
| Schema.InsertedThreadIsFound | src/components/home/sidebar/CodeCard.tsx:108-128 | After a thread is inserted for a pair that had none, the lookup finds it in either order. |
| Schema.Database.constructor | src/contexts/ChatContext.tsx:63-72 | The database starts with the given threads, messages and codes. |
| ChatContext.OtherParticipant | src/contexts/ChatContext.tsx:83-84 | The other participant is one of the thread's two users, and it is not the current user when the current user is one of two distinct participants. |
| ChatContext.FindUser | src/contexts/ChatContext.tsx:94 | A user is found exactly when one with that id is listed, and the user found has that id. |
| ChatContext.FindUserIsFirst | src/contexts/ChatContext.tsx:94 | The user found is the first with that id, as `Array.find` returns. |
| ChatContext.BuildSidebar | src/contexts/ChatContext.tsx:76-108 | Without a user id the sidebar is empty; otherwise it has one entry per thread, in order, naming the thread and its other participant. A listed participant shows its name or "Unknown" when the name is empty, and its image only when that is non-empty; an unlisted one shows "Unknown" with no image. |
| ChatContext.SidebarShowsKnownName | src/contexts/ChatContext.tsx:93-100 | An entry shows the name of the listed user with the other participant's id when that name is non-empty. |
| ChatContext.InsertMessage | src/contexts/ChatContext.tsx:142-145 | A live message is appended at most once: the old list is a prefix of the new one, its id is listed afterwards, and an added element is the message; the list grows exactly when the id is new. |
| ChatContext.InsertMessageIdempotent | src/contexts/ChatContext.tsx:142-145 | Delivering the same message twice gives the same list as delivering it once. |
| ChatContext.InsertMessageKeepsIdsUnique | src/contexts/ChatContext.tsx:142-145 | Distinct message ids stay distinct after an insert, and the list grows exactly when the id was not yet listed. |
| ChatContext.InsertThread | src/contexts/ChatContext.tsx:169-176 | A live thread is prepended exactly when it involves the current user and its id is not listed yet; otherwise the list is unchanged. |
| ChatContext.InsertThreadKeepsIdsUnique | src/contexts/ChatContext.tsx:169-176 | Distinct thread ids stay distinct after a live insert, and a repeated delivery changes nothing. |
| ChatContext.CreatedThreadAfterEchoIsDuplicated | src/contexts/ChatContext.tsx:169-211 | When the live echo of a new thread is applied before the creator's own prepend, the list holds the thread twice, while a repeated echo alone would not duplicate it. |
| ChatContext.ChatProvider.constructor | src/contexts/ChatContext.tsx:55-58 | The provider starts with no threads, no sidebar entries, no messages and no active thread. |
| ChatContext.ChatProvider.SetActiveThread | src/contexts/ChatContext.tsx:241 | Selecting a thread changes only the active thread. |
| ChatContext.ChatProvider.LoadThreads | src/contexts/ChatContext.tsx:63-72 | With a user id the thread list becomes the query's rows; without one it is unchanged; nothing else changes. |
| ChatContext.ChatProvider.RebuildSidebar | src/contexts/ChatContext.tsx:76-108 | The sidebar becomes the sidebar function of the threads and the known users. |
| ChatContext.ChatProvider.SyncMessages | src/contexts/ChatContext.tsx:112-124 | With an active thread the messages become the query's rows; with none they become empty. |
| ChatContext.ChatProvider.OnMessageInserted | src/contexts/ChatContext.tsx:142-145 | A live message for the active thread is inserted as the insert function states; any other message changes nothing. |
| ChatContext.ChatProvider.OnThreadInserted | src/contexts/ChatContext.tsx:169-176 | With a user id a live thread is inserted as the thread-insert function states; without one nothing changes. |
| ChatContext.ChatProvider.CreateOrGetThread | src/contexts/ChatContext.tsx:187-212 | Without a user nothing changes. An existing thread for the pair is returned and made active without a new row. Otherwise a new thread is stored, prepended and made active, or on a failed insert none is active. |
| ChatContext.ChatProvider.SendMessage | src/contexts/ChatContext.tsx:216-232 | With a user, an active thread and content that is not all whitespace, and an insert the backend accepts, exactly one message from the user to the other participant is stored; otherwise, including a refused insert, nothing is. |
| CodeCard.CappedInput | src/components/home/sidebar/CodeCard.tsx:170-176 | The input keeps a prefix of at most six characters of what was typed, and all of it when it is that short. |
| CodeCard.ConnectEnabled | src/components/home/sidebar/CodeCard.tsx:180 | Definition of the Connect button's enabled state: not verifying and at least six characters after trimming. Its property is ConnectEnabledMeansSixCleanCharacters. |
| CodeCard.ConnectEnabledMeansSixCleanCharacters | src/components/home/sidebar/CodeCard.tsx:180 | When the connect button is enabled, no verification is running and the input is exactly six characters with no surrounding whitespace. |
| CodeCard.Usable | src/components/home/sidebar/CodeCard.tsx:45-51 | Definition of the row filter: the entered code, not yet verified, expiring after now. |
| CodeCard.UsableRows | src/components/home/sidebar/CodeCard.tsx:45-59 | The lookup keeps exactly the rows with that code that are unredeemed and not expired. |
| CodeCard.Redeem | src/components/home/sidebar/CodeCard.tsx:36-82 | One's own code is rejected exactly when it is the code shown; anything but a single usable row is invalid or expired; a redeemable verdict names that row, whose owner is someone else. |
| CodeCard.RedeemOwnerRules | src/components/home/sidebar/CodeCard.tsx:63-82 | For a single usable row, a missing owner, one's own account and another owner give the three different verdicts. |
| CodeCard.MarkRedeemed | src/components/home/sidebar/CodeCard.tsx:85-101 | Marking flags the row with that id as redeemed by the user and keeps every other row, and every column but those two. |
| CodeCard.MarkRedeemedRemovesUsable | src/components/home/sidebar/CodeCard.tsx:85-101 | After marking, the marked row is no longer usable, and no row became usable that was not before. |
| CodeCard.RedeemedCodeIsSingleUse | src/components/home/sidebar/CodeCard.tsx:44-101 | A code redeemed once is rejected at any later attempt. |
| CodeCard.CodeCard.constructor | src/components/home/sidebar/CodeCard.tsx:15-18 | The card starts with an empty input, no verification running and no message. |
| CodeCard.CodeCard.OnInputChange | src/components/home/sidebar/CodeCard.tsx:170-176 | Typing sets the input to its capped form. |
| CodeCard.CodeCard.HandleGenerate | src/components/home/sidebar/CodeCard.tsx:21-26 | With a user, the messages are cleared and the generated code, when one is returned, is shown; without a user nothing changes. |
| CodeCard.CodeCard.HandleVerify | src/components/home/sidebar/CodeCard.tsx:29-139 | A rejected code shows its message and changes no row. A failed update shows "Failed to verify code.". A successful one marks the code, creates the pair's thread when none exists, shows "Connection successful!" and clears the input. |
| QRConnectionFlow.FieldsLastWins | src/components/QRConnectionFlow.tsx:47-51 | A key maps to the value of the last part that carries it. |
| QRConnectionFlow.FieldsFromLastPart | src/components/QRConnectionFlow.tsx:47-51 | Conversely, every key of the field map is carried by some part, and it holds the value of the last such part. |
| QRConnectionFlow.FromFields | src/components/QRConnectionFlow.tsx:53-57 | A parse fails exactly when the code field is missing or empty; it carries the code, and the inviter field when there is one. |
| QRConnectionFlow.PartValueStopsAtSecondColon | src/components/QRConnectionFlow.tsx:48-49 | A part's key is its trimmed text before the first colon and its value the trimmed text between the first and second colon. |
| QRConnectionFlow.PartWithOneColon | src/components/QRConnectionFlow.tsx:48-49 | A part with one colon splits into the trimmed text before and after it. |
| QRConnectionFlow.CodePart | src/components/QRConnectionFlow.tsx:48-49 | The part "code:<c>" gives key "code" and the trimmed c. |
| QRConnectionFlow.InviterPart | src/components/QRConnectionFlow.tsx:48-49 | The part "inviter:<u>" gives key "inviter" and the trimmed u. |
| QRConnectionFlow.ParseCodeOnly | src/components/QRConnectionFlow.tsx:45-61 | The text "code:<c>" parses to the trimmed code with no inviter. |
| QRConnectionFlow.FieldsOfTwo | src/components/QRConnectionFlow.tsx:47-51 | Two parts give the map of their keys, the second winning on a shared key. |
| QRConnectionFlow.ParseCodeAndInviterParts | src/components/QRConnectionFlow.tsx:45-61 | A code part and an inviter part joined by "|" parse to that code and that inviter. |
| QRConnectionFlow.ParseCodeWithInviter | src/components/QRConnectionFlow.tsx:45-61 | The text "code:<c>\|inviter:<u>" parses to the trimmed code and the trimmed inviter. |
| QRConnectionFlow.ParseQRCode | src/components/QRConnectionFlow.tsx:45-61 | Definition of `parseQRCode`: split on "\|", read key/value fields, require a code. Its properties are FromFields, FieldsLastWins and the Parse lemmas above. |
| QRConnectionFlow.VerifyAndConnect | src/components/QRConnectionFlow.tsx:170-211 | One verification request is made; the flow succeeds exactly when the backend confirms, handing the returned user to `createOrGetThread`, and otherwise fails with a non-empty message. |
| QRConnectionFlow.RegisterChain | src/components/QRConnectionFlow.tsx:106-165 | The user is signed in exactly when the email is new, registration, login and the profile lookup all succeed; the flow succeeds exactly when the code is then confirmed; a failure always carries a message. |
| QRConnectionFlow.RegisterRequestsInOrder | src/components/QRConnectionFlow.tsx:106-165 | The requests are a prefix of check-email, register, login, me, verify; more than one is made exactly for a new email, and all five exactly when the user is signed in. |
| QRConnectionFlow.QRConnectionFlow.constructor | src/components/QRConnectionFlow.tsx:28-37 | The flow starts at the scan step with the scanner shown, an empty form, no error and no requests. |
| QRConnectionFlow.QRConnectionFlow.Apply | src/components/QRConnectionFlow.tsx:157-164 | A finished run sets the step, the error, the requests, the thread to open and the signed-in user from its outcome, and ends loading. |
| QRConnectionFlow.QRConnectionFlow.HandleQRScan | src/components/QRConnectionFlow.tsx:66-85 | An unparseable scan fails with "Invalid QR code format" and changes nothing else. A parsed one is stored and moves to registration, or for a signed-in user connects at once; either way the signed-in user is left as it was. |
| QRConnectionFlow.QRConnectionFlow.HandleAutoRegister | src/components/QRConnectionFlow.tsx:90-165 | An incomplete form or a password under eight characters shows its message without a request; otherwise the state follows the registration chain. |
| QRConnectionFlow.QRConnectionFlow.HandleRetry | src/components/QRConnectionFlow.tsx:213-221 | Retrying returns to the scan step with the scanner shown, and clears the scanned data, the form and the error. |
| ChatView.IsSameDayIsEquality | src/components/home/ChatView.tsx:14-17 | Two dates are on the same day exactly when they are equal; the relation is reflexive and symmetric. |
| ChatView.IsSameDay | src/components/home/ChatView.tsx:14-17 | Definition of `isSameDay`: year, month and day agree. |
| ChatView.MessagesOfAppend | src/components/home/ChatView.tsx:110-124 | Flattening the blocks of a concatenation is the concatenation of their flattenings. |
| ChatView.LastBlockMessages | src/components/home/ChatView.tsx:110-124 | The block that ends a grouping holds exactly the last message. |
| ChatView.GroupedKeepsMessages | src/components/home/ChatView.tsx:110-124 | The grouped blocks, read in order, are exactly the messages. |
| ChatView.GroupedEndsWithLast | src/components/home/ChatView.tsx:110-124 | The grouping ends with the last message. |
| ChatView.GroupedIsWellGrouped | src/components/home/ChatView.tsx:110-124 | Every date header is followed by messages of that day, and a header appears exactly where the day changes. |
| ChatView.GroupedEmptyIffNoMessages | src/components/home/ChatView.tsx:110-124 | There are no items exactly when there are no messages, and otherwise the first item is a date header. |
| ChatView.Grouped | src/components/home/ChatView.tsx:110-124 | Reference definition of the grouping, block by block; GroupMessages is proved equal to it and the Grouped lemmas above state its properties. |
| ChatView.GroupMessages | src/components/home/ChatView.tsx:110-124 | The grouping loop builds exactly the grouping function's items, which keep every message in order and are well grouped. |
| ChatView.IsOnline | src/components/home/ChatView.tsx:62 | The other user is shown online exactly when there is one and their id is in the online list. |
| ChatView.SendEnabledIffNotAllSpace | src/components/home/ChatView.tsx:233 | The send button is enabled exactly when the input is not all whitespace. |
| ChatView.SendEnabled | src/components/home/ChatView.tsx:233 | Definition of the send button's enabled state: the trimmed input is non-empty. |
| ChatView.ChatView.constructor | src/components/home/ChatView.tsx:57 | The view starts with an empty input. |
| ChatView.ChatView.HandleTyping | src/components/home/ChatView.tsx:94-95 | Typing sets the input to the typed text. |
| ChatView.ChatView.EnsureThread | src/components/home/ChatView.tsx:65-74 | With no active thread, a connection id, a user and another user, the active thread becomes the connection's thread; otherwise nothing changes. |
| ChatView.ChatView.HandleSendMessage | src/components/home/ChatView.tsx:82-91 | An all-whitespace input sends nothing. Otherwise the input is sent through the provider, stored only when the insert is accepted, and cleared either way. |
| Login.TitlesAreDistinct | src/pages/Login.tsx:183-189 | Two steps show the same title exactly when they are the same step. |
| Login.Title | src/pages/Login.tsx:183-189 | Definition of the card title of each step. |
| Login.ErrorOr | src/pages/Login.tsx:102 | The alert is the backend's error when it is non-empty and the fallback otherwise, never empty. |
| Login.CheckEmailTransitions | src/pages/Login.tsx:53-83 | Without an email nothing happens. Otherwise check-email comes first and an OTP is sent exactly for an unknown email; the step moves to password exactly when the email is known, and to OTP exactly when the code was sent for an unknown email. |
| Login.SignInTransitions | src/pages/Login.tsx:88-113 | The page navigates home exactly when the backend accepts and the user row is found, signing in that row; otherwise one non-empty alert is shown; the user lookup happens exactly on acceptance. |
| Login.VerifyOtpTransitions | src/pages/Login.tsx:118-143 | An OTP that is not six characters makes no request; the page moves to set-password exactly when the backend accepts a six-character OTP, and otherwise stays. |
| Login.Endpoints | src/pages/Login.tsx:59-153 | The endpoints list has one entry per request, in order. |
| Login.CheckEmailOutcome | src/pages/Login.tsx:53-83 | Definition of the email step's outcome; its properties are CheckEmailTransitions. |
| Login.SignInOutcome | src/pages/Login.tsx:88-113 | Definition of the sign-in tail shared by login and set-password; its properties are SignInTransitions. |
| Login.VerifyOtpOutcome | src/pages/Login.tsx:118-143 | Definition of the OTP step's outcome; its properties are VerifyOtpTransitions. |
| Login.LoginPage.constructor | src/pages/Login.tsx:13-17 | The page starts at the email step with empty fields, not loading, with no alerts, requests or navigation. |
| Login.LoginPage.Issue | src/pages/Login.tsx:59-153 | One request to the endpoint is recorded, with the current loading flag, and nothing else changes. |
| Login.LoginPage.SignIn | src/pages/Login.tsx:28-48 | The signed-in user is the loaded row, and the session is saved as the save function states. |
| Login.LoginPage.HandleCheckEmail | src/pages/Login.tsx:53-83 | The step, alerts and requests follow the check-email transition, every request is made while loading, and loading ends false. |
| Login.LoginPage.SignInFlow | src/pages/Login.tsx:88-113 | The step, alerts, requests, navigation and session follow the sign-in transition, and loading ends false. |
| Login.LoginPage.HandleLogin | src/pages/Login.tsx:88-113 | The password login follows the sign-in transition with the "Invalid credentials" fallback; a signed-in user becomes the session user and is saved to storage, otherwise the session is unchanged; the typed email, OTP and password are kept, and loading ends false. |
| Login.LoginPage.HandleVerifyOtp | src/pages/Login.tsx:118-143 | The step, alerts and requests follow the OTP transition, and loading ends false after a request. |
| Login.LoginPage.HandleSetPassword | src/pages/Login.tsx:148-173 | Setting the password follows the sign-in transition with the "Registration failed" fallback; a signed-in user becomes the session user and is saved to storage, otherwise the session is unchanged; the typed fields are kept, and loading ends false. |
| CallContext.Teardown | src/contexts/CallContext.tsx:103-114 | Teardown emits nothing, stops each stream present, closes the peer last when there is one, and is only stream stops without a peer. |
| CallContext.IndexOf | src/contexts/CallContext.tsx:64-69 | The index found holds the effect, and no earlier position does. |
| CallContext.StartCallEffects | src/contexts/CallContext.tsx:55-70 | Definition of the effects of starting a call, in source order; StartCallOrder states the order. |
| CallContext.AcceptEffects | src/contexts/CallContext.tsx:73-100 | Definition of the effects of accepting a call, in source order; AcceptOrder states the order. |
| CallContext.StartCallOrder | src/contexts/CallContext.tsx:55-70 | Starting a call adds the tracks before creating the offer, sets the local description after the offer, and signals the callee last. |
| CallContext.AcceptOrder | src/contexts/CallContext.tsx:73-100 | Accepting sets the remote offer before adding tracks, adds them before the answer, sets the answer locally after creating it, and answers the caller last. |
| CallContext.EndCallIsTeardownThenEmit | src/contexts/CallContext.tsx:103-145 | Ending a call is the teardown followed by exactly one signal, the end-call event, at the end. |
| CallContext.CallProvider.constructor | src/contexts/CallContext.tsx:18-22 | The provider starts with no peer, no incoming call, no streams and nothing done. |
| CallContext.CallProvider.Register | src/contexts/CallContext.tsx:25-29 | With a user id, registering emits it; nothing else changes. |
| CallContext.CallProvider.StartCall | src/contexts/CallContext.tsx:55-70 | Media is requested; when granted, the start effects run and the peer and local stream are set; when refused nothing else changes. |
| CallContext.CallProvider.AcceptCall | src/contexts/CallContext.tsx:73-100 | Without an incoming call, or with a peer, nothing happens. Otherwise media is requested; when granted the accept effects run, the peer is set and the incoming call cleared. |
| CallContext.CallProvider.TearDown | src/contexts/CallContext.tsx:104-114 | Teardown performs the teardown effects and clears the peer, both streams and the incoming call. |
| CallContext.CallProvider.EndCall | src/contexts/CallContext.tsx:103-117 | Ending tears down and then emits end-call. |
| CallContext.CallProvider.OnCallEnded | src/contexts/CallContext.tsx:133-145 | A remote end tears down without emitting. |
| CallContext.CallProvider.OnIncomingCall | src/contexts/CallContext.tsx:121 | An incoming call is stored, replacing any earlier one, and nothing else changes. |
| CallContext.CallProvider.OnCallAccepted | src/contexts/CallContext.tsx:123-127 | The answer is set as the remote description of the current peer, if there is one. |
| CallContext.CallProvider.OnIceCandidate | src/contexts/CallContext.tsx:129-131 | A remote candidate is added to the current peer, if there is one. |
| CallContext.CallProvider.OnLocalIceCandidate | src/contexts/CallContext.tsx:37-44 | A local candidate is sent to the peer's remote user; the end-of-candidates event sends nothing. |
| CallContext.CallProvider.OnTrack | src/contexts/CallContext.tsx:46-48 | With a peer, the remote stream becomes the event's stream. |
| Notifications.Padding | src/utils/notifications.ts:125 | The padding is under four and brings the length to a multiple of four, and is zero exactly when the length already is one. |
| Notifications.ReplaceAll | src/utils/notifications.ts:126 | Each character equal to the target is replaced, and every other character is kept, at the same position. |
| Notifications.ReplacedToStandard | src/utils/notifications.ts:126 | The two replacements map every '-' to '+' and every '_' to '/', and change nothing else. |
| Notifications.StandardKey | src/utils/notifications.ts:124-126 | Definition of the padded, URL-to-standard alphabet key; StandardKeyShape and StandardKeyRoundTrip state its properties. |
| Notifications.StandardKeyShape | src/utils/notifications.ts:125-126 | The standard key has a length that is a multiple of four and at most three more than the key's, maps each key character to the standard alphabet, and pads with '='. |
| Notifications.StandardKeyRoundTrip | src/utils/notifications.ts:124-126 | Mapping each character of the standard key back to the URL-safe alphabet gives back the key, for keys free of '+' and '/'. |
| Notifications.Bytes | src/utils/notifications.ts:129-133 | Each output byte is the low eight bits of the character at the same position. |
| Notifications.DecodedKey | src/utils/notifications.ts:124-136 | Definition of the key decoding with `atob` as a parameter; UrlBase64ToBytes is the loop proved equal to it. |
| Notifications.UrlBase64ToBytes | src/utils/notifications.ts:124-136 | No array is returned exactly when the decoder fails; otherwise a fresh array holding the decoded key's bytes. |
| Notifications.RequestPermission | src/utils/notifications.ts:141-164 | The prompt appears exactly from the default state; permission is granted when it already was or the prompt grants it; subscribing follows exactly a granted prompt with a configured key. |
| Notifications.SubscribeToPush | src/utils/notifications.ts:41-73 | An existing subscription is returned as it is. Without one, with a key, a subscription is requested and, once created, saved. The result is a subscription exactly when one existed or was created. |
| Notifications.Unsubscribe | src/utils/notifications.ts:78-95 | Unsubscribing reports success exactly when push is supported, a subscription exists and the browser unsubscribes it. |
| Notifications.WithDefaults | src/utils/notifications.ts:188-205 | The body and data are kept; each empty icon, badge or tag takes its default, so none is empty. |
| Notifications.SendNotification | src/utils/notifications.ts:169-210 | Nothing is shown exactly when unsupported, denied or not granted at the prompt. With a controlling worker the message goes to it, otherwise it is shown directly, both with the defaulted options. |
| Notifications.NotifyNewMessage | src/utils/notifications.ts:215-231 | Definition of the new-message options; NewMessageShown states what is shown. |
| Notifications.NewMessageShown | src/utils/notifications.ts:215-231 | A new-message notification is titled with the sender, has a non-empty body, the "dm-" tag of the sender, the default badge, the avatar or the default icon, and the thread id and "message" type. |
| ServiceWorker.Lookup | public/sw.js:46 | A lookup finds the response stored for the URL in the app's cache exactly when there is one. |
| ServiceWorker.Cacheable | public/sw.js:56 | Definition of a response worth caching: status 200 and not of type "error". |
| ServiceWorker.Installed | public/sw.js:10-20 | When every asset fetches with a 2xx status all are stored; otherwise the cache is unchanged; other entries are kept. |
| ServiceWorker.Pruned | public/sw.js:23-36 | Activation keeps only the app's own cache, with its contents. |
| ServiceWorker.FetchPolicy | public/sw.js:39-74 | Only GET is intercepted. A cached response is served without the network. Otherwise the network reply is served, and stored when cacheable; a network failure serves the cached offline page. |
| ServiceWorker.StoredResponseIsServed | public/sw.js:46-66 | A cacheable network response to a GET is served from the cache on the next GET for the URL, without the network. |
| ServiceWorker.PushNotification | public/sw.js:77-117 | A push without data shows nothing; a JSON push shows its title, body, icon, badge and tag with the defaults for the empty ones, its data or an empty object, and the open and close actions; a text push shows the default title and the text. |
| ServiceWorker.MessageNotification | public/sw.js:163-168 | Only a SEND_NOTIFICATION message shows a notification, with the title and the options the page sent. |
| ServiceWorker.WorkerShowsWhatThePageSent | src/utils/notifications.ts:184-206 | A notification the page sends through its worker is shown with the same title and options as the direct path would show. |
| ServiceWorker.FirstAppWindow | public/sw.js:134-146 | The client found is an app window and no earlier client is; none is found only when no client is one. |
| ServiceWorker.FindAppWindow | public/sw.js:134-146 | The search loop finds exactly the first app window. |
| ServiceWorker.OpenUrl | public/sw.js:149-152 | Definition of the page opened: the thread's page when there is a thread id, otherwise the home page. |
| ServiceWorker.ClickTarget | public/sw.js:120-155 | Definition of the click handler's choice; ClickTargets and NewMessageClickOpensThread state its properties. |
| ServiceWorker.ClickTargets | public/sw.js:120-155 | The close action does nothing. Otherwise the first app window is focused and told the thread exactly when there is one, and with no app window the thread's page or "/home" is opened. |
| ServiceWorker.NewMessageClickOpensThread | public/sw.js:149-152 | A click on a new-message notification with no app window opens "/home?thread=" and the thread id. |
| ServiceWorker.Worker.constructor | public/sw.js:6-7 | The worker starts with the given caches and nothing fetched or shown. |
| ServiceWorker.Worker.Install | public/sw.js:10-20 | Install sets the app's cache to the installed function's result, having fetched every asset. |
| ServiceWorker.Worker.Activate | public/sw.js:23-36 | The loop over cache names deletes every cache but the app's own. |
| ServiceWorker.Worker.HandleFetch | public/sw.js:39-74 | The response, the caches and the network log follow the fetch policy. |
| ServiceWorker.Worker.HandlePush | public/sw.js:77-117 | The push's notification, if any, is appended to those shown. |
| ServiceWorker.Worker.HandleMessage | public/sw.js:163-168 | A page message's notification, if any, is appended to those shown. |
| ServiceWorker.Worker.HandleClick | public/sw.js:120-155 | The click outcome is the click-target function's. |
| PushFunction.PushBody | supabase-push-function.ts:64 | The body is never empty and at most a hundred characters: the prefix of the content, or "Sent a message" without content. |
| PushFunction.PushTitle | supabase-push-function.ts:63 | Definition of the title: "Message from " and the sender's name, or "Someone". |
| PushFunction.Handle | supabase-push-function.ts:10-89 | An unreadable body answers 500 and a record without both ids 400, neither pushing. A push is sent exactly for a valid record whose receiver has subscriptions, with the receiver, title, preview, icon and thread; it answers 500 exactly when the backend fails. |
| PushFunction.StatusSelection | supabase-push-function.ts:10-89 | The status is 200, 400 or 500; 400 happens exactly for a missing or incomplete record, whatever the lookups return. |

## Left out

- Network, database and socket I/O are not modelled as such: each reply is an input, and concurrent interleavings of async handlers are not explored. The one interleaving modelled is ChatContext.CreatedThreadAfterEchoIsDuplicated.
- Timers (the typing debounce, the QR flow's redirect delay) and clocks are left out; "now" and the calendar day of a timestamp are parameters.
- JavaScript string length and `substring` count UTF-16 code units. The model counts Dafny characters; this affects the six-character code check, the OTP input, the eight-character minimum of the QR registration password and the hundred-character push preview.
- Notifications.Bytes: `charCodeAt` is a UTF-16 unit; the model takes the low eight bits of the Dafny character, which agrees for the Latin-1 output `atob` produces. `atob` itself is a parameter.
- `registerServiceWorker` and the body of `savePushSubscription` are thin wrappers over browser and fetch APIs; only the fact that a subscription is saved is modelled.
- AuthContext.RestoreOutcomes: a stored user that parses to a non-object is treated like an unparseable one.
- UserContext.UserProvider.RestoreSession: `JSON.parse` is not caught in the source, so a parse failure is reported as a throw rather than recovered.
- CodeCard.CodeCard.HandleVerify: the catch path ("Something went wrong.") for a thrown query is not modelled; failed queries are modelled by their returned error instead. The `authLoading` guard reads a value the auth context never provides, so it is always undefined and never blocks.
- ChatContext.ChatProvider.CreateOrGetThread: when the insert fails, the source prepends `null` to the thread list; the model leaves the list unchanged and the active thread empty.
- The `.or` filter of the thread lookup is modelled by its meaning (either participant order), not its query syntax.
- ChatView.IsOnline: the view reads `onlineUsers`, `typing` and `sendTyping` from the chat context, which does not provide them. In the source `onlineUsers.includes` would throw at render, and the `sendTyping(false)` after a send would throw; the model treats the online list as a parameter and leaves typing signals out.
- QRConnectionFlow.VerifyAndConnect: the guard `!currentUser?.id && !setUser` can never fire because `setUser` is always defined; the requesting user id it sends may be stale, which is not modelled.
- QRConnectionFlow.RegisterChain: the `createOrGetThread` it reaches was captured in the render before `setUser`, so it still sees no signed-in user and returns null without opening a thread (src/components/QRConnectionFlow.tsx:26, 184; src/contexts/ChatContext.tsx:188); the flow still ends in success, and the model records only the hand-off in `threadRequests`.
- Login: the form fields' `required` attributes are browser validation and are not modelled.
- CallContext: the provider is not mounted in the app tree (src/App.tsx:85-89), so its hooks would throw; the model describes the provider as written.
- CallContext.CallProvider.StartCall: a `getUserMedia` rejection is unhandled in the source and is modelled as missing media; rejections of offer or description calls are not modelled. Starting a call while a peer exists replaces it without closing it, as written.
- CallContext.CallProvider.OnLocalIceCandidate: callbacks of a replaced peer are not modelled; events are delivered for the current peer only.
- ServiceWorker.Lookup: `caches.match` searches every cache in the source; the model looks only in the app's own cache, which is the only one left after activation. The `Vary` header is ignored.
- ServiceWorker.Worker.HandleFetch: the cache write happens at once; the source's fire-and-forget `cache.put` is not ordered against later requests.
- ServiceWorker.ClickTargets: a client's URL is compared with "/" as the source writes it. Browsers report absolute URLs, so in practice no window would match.
- A push whose `event.data.json()` fails falls back to its text, which is modelled; a push with no data shows nothing. `skipWaiting`, `clients.claim` and the `notificationclose` log are left out.
- PushFunction.Handle: the environment variables, the database client and the backend URL are left out; the sender and subscription lookups are inputs.
- `useRealTimeMessages` and `public/service-worker.js` are not part of this model.

=== FILE: auth_context.dfy ===
/** The authentication provider: the UUID check on stored ids, restoring the
    session from local storage, saving and clearing it, and the bearer header. */
module AuthContext {
  import opened Wrappers
  import opened Text
  import opened LocalStore
  import opened Schema

  const AccessTokenKey: string := "networx_accessToken"
  const RefreshTokenKey: string := "networx_refreshToken"

  /** The three keys the session occupies. */
  const SessionKeys: set<string> := {UserKey, AccessTokenKey, RefreshTokenKey}

  /** The signed-in user; an `id` of `""` stands for a record without one. */
  datatype User = User(id: string, email: string, name: Option<string>,
                       accessToken: Option<string>, refreshToken: Option<string>)

  /* ---------- the UUID check ---------- */

  /** A hexadecimal digit in either case (the `i` flag of the pattern). */
  predicate IsHexDigit(c: char) {
    ('0' <= c <= '9') || ('a' <= c <= 'f') || ('A' <= c <= 'F')
  }

  /** The positions of the four hyphens in the 8-4-4-4-12 form. */
  predicate IsHyphenPosition(i: int) {
    i == 8 || i == 13 || i == 18 || i == 23
  }

  /** `isValidUUID`: 36 characters, hyphens at positions 8, 13, 18 and 23 and
      hexadecimal digits everywhere else; no version or variant check. */
  predicate IsValidUUID(id: string) {
    |id| == 36 && forall i :: 0 <= i < |id| ==> if IsHyphenPosition(i) then id[i] == '-' else IsHexDigit(id[i])
  }

  /** A group of exactly `n` hexadecimal digits. */
  predicate HexGroup(g: string, n: nat) {
    |g| == n && forall i :: 0 <= i < |g| ==> IsHexDigit(g[i])
  }

  /** The groups form of the check: split on hyphens, exactly five groups of
      8, 4, 4, 4 and 12 hexadecimal digits. */
  predicate HexGroupsForm(id: string) {
    var g := SplitOn(id, '-');
    |g| == 5 && HexGroup(g[0], 8) && HexGroup(g[1], 4) && HexGroup(g[2], 4) && HexGroup(g[3], 4) && HexGroup(g[4], 12)
  }

  lemma HexGroupHasNoHyphen(g: string, n: nat)
    requires HexGroup(g, n)
    ensures '-' !in g
  {
  }

  /** Five groups joined by hyphens, written out. */
  lemma JoinFive(g: seq<string>)
    requires |g| == 5
    ensures Join(g, '-') == g[0] + "-" + (g[1] + "-" + (g[2] + "-" + (g[3] + "-" + g[4])))
  {
    var t1 := g[1..];
    var t2 := t1[1..];
    var t3 := t2[1..];
    var t4 := t3[1..];
    assert t1[0] == g[1] && t2[0] == g[2] && t3[0] == g[3] && t4 == [g[4]];
    var j3 := g[3] + "-" + g[4];
    assert Join(t3, '-') == j3;
    var j2 := g[2] + "-" + j3;
    assert Join(t2, '-') == j2;
    var j1 := g[1] + "-" + j2;
    assert Join(t1, '-') == j1;
    assert Join(g, '-') == g[0] + "-" + j1;
  }

  /** Hex groups of the right lengths joined by hyphens pass the positional check. */
  lemma JoinedGroupsAreValid(g: seq<string>)
    requires |g| == 5 && HexGroup(g[0], 8) && HexGroup(g[1], 4) && HexGroup(g[2], 4) && HexGroup(g[3], 4) && HexGroup(g[4], 12)
    ensures IsValidUUID(Join(g, '-'))
  {
    JoinFive(g);
    var id := Join(g, '-');
    forall i | 0 <= i < |id| ensures if IsHyphenPosition(i) then id[i] == '-' else IsHexDigit(id[i]) {
      if i < 8 { assert id[i] == g[0][i]; }
      else if 9 <= i < 13 { assert id[i] == g[1][i - 9]; }
      else if 14 <= i < 18 { assert id[i] == g[2][i - 14]; }
      else if 19 <= i < 23 { assert id[i] == g[3][i - 19]; }
      else if 24 <= i { assert id[i] == g[4][i - 24]; }
    }
  }

  /** The positional check and the groups form accept the same strings. */
  lemma ValidUUIDIffHexGroups(id: string)
    ensures IsValidUUID(id) <==> HexGroupsForm(id)
  {
    if IsValidUUID(id) {
      var g := [id[..8], id[9..13], id[14..18], id[19..23], id[24..]];
      forall k | 0 <= k < 5 ensures HexGroup(g[k], [8, 4, 4, 4, 12][k]) {
        var off := [0, 9, 14, 19, 24][k];
        forall i | 0 <= i < |g[k]| ensures IsHexDigit(g[k][i]) {
          assert g[k][i] == id[off + i];
        }
      }
      assert HexGroup(g[0], 8) && HexGroup(g[1], 4) && HexGroup(g[2], 4) && HexGroup(g[3], 4) && HexGroup(g[4], 12);
      JoinFive(g);
      assert Join(g, '-') == id;
      forall p | p in g ensures '-' !in p {
        var k :| 0 <= k < 5 && g[k] == p;
        HexGroupHasNoHyphen(g[k], [8, 4, 4, 4, 12][k]);
      }
      SplitJoin(g, '-');
    }
    if HexGroupsForm(id) {
      var g := SplitOn(id, '-');
      JoinSplit(id, '-');
      JoinedGroupsAreValid(g);
    }
  }

  /* ---------- the session in local storage ---------- */

  /** What `saveUser(u)` leaves in storage: a user is written under
      `networx_user` (serialised by `stringify`), no user removes all three keys. */
  function Saved(entries: map<string, string>, u: Option<User>, stringify: User -> string): (r: map<string, string>)
    ensures u.Some? ==> UserKey in r && r[UserKey] == stringify(u.value)
    ensures u.None? ==> forall k :: k in SessionKeys ==> k !in r
    ensures forall k :: (k != UserKey && (u.Some? || k !in SessionKeys)) ==>
      (k in r <==> k in entries) && (k in r ==> r[k] == entries[k])
  {
    if u.Some? then entries[UserKey := stringify(u.value)] else entries - SessionKeys
  }

  /** The outcome of the restore effect: the storage afterwards and the user it sets, if any. */
  datatype Restored = Restored(entries: map<string, string>, user: Option<User>)

  /** The restore effect on mount. `parse` is `JSON.parse` followed by reading
      the record (`None` when it throws). An absent or empty entry changes
      nothing; an unreadable one is removed; a record with a non-empty id that
      fails the UUID check clears the whole session; anything else is the user. */
  function Restore(entries: map<string, string>, parse: string -> Option<User>): Restored
  {
    if UserKey !in entries || entries[UserKey] == "" then Restored(entries, None)
    else
      match parse(entries[UserKey])
      case None => Restored(entries - {UserKey}, None)
      case Some(u) =>
        if u.id != "" && !IsValidUUID(u.id) then Restored(entries - SessionKeys, None)
        else Restored(entries, Some(u))
  }

  /** A restored user never carries a malformed id, a restore that sets no user
      after reading a record has removed it, and storage outside the session keys
      is never touched. */
  lemma RestoreOutcomes(entries: map<string, string>, parse: string -> Option<User>)
    ensures var r := Restore(entries, parse);
      && (r.user.Some? ==> r.user.value.id == "" || IsValidUUID(r.user.value.id))
      && (r.user.Some? <==> UserKey in entries && entries[UserKey] != "" && parse(entries[UserKey]).Some? &&
                            (parse(entries[UserKey]).value.id == "" || IsValidUUID(parse(entries[UserKey]).value.id)))
      && (r.user.Some? ==> r.entries == entries && r.user == parse(entries[UserKey]))
      && (r.user.None? && UserKey in entries && entries[UserKey] != "" ==> UserKey !in r.entries)
      && (forall k :: k !in SessionKeys ==> (k in r.entries <==> k in entries) && (k in r.entries ==> r.entries[k] == entries[k]))
  {
  }

  /** A record whose non-empty id fails the check leaves no session key behind. */
  lemma RestoreRejectsMalformedId(entries: map<string, string>, parse: string -> Option<User>)
    requires UserKey in entries && entries[UserKey] != ""
    requires parse(entries[UserKey]).Some? && parse(entries[UserKey]).value.id != ""
    requires !IsValidUUID(parse(entries[UserKey]).value.id)
    ensures Restore(entries, parse).user == None
    ensures forall k :: k in SessionKeys ==> k !in Restore(entries, parse).entries
  {
  }

  /** Saving a user and restoring on the next load gives the same user back,
      provided the record reads back as itself and its id is empty or well
      formed; after `saveUser(null)` the restore finds nothing. */
  lemma SaveThenRestore(entries: map<string, string>, u: Option<User>, stringify: User -> string, parse: string -> Option<User>)
    requires u.Some? ==> stringify(u.value) != "" && parse(stringify(u.value)) == u
    requires u.Some? ==> u.value.id == "" || IsValidUUID(u.value.id)
    ensures Restore(Saved(entries, u, stringify), parse) == Restored(Saved(entries, u, stringify), u)
  {
  }

  /** `getAuthHeader`: the `Authorization` value, present exactly when the user
      has a non-empty access token. */
  function AuthHeader(user: Option<User>): (h: Option<string>)
    ensures h.Some? <==> user.Some? && Truthy(user.value.accessToken)
    ensures h.Some? ==> |h.value| > 7 && h.value[..7] == "Bearer "
  {
    if user.Some? && Truthy(user.value.accessToken) then Some("Bearer " + user.value.accessToken.value) else None
  }

  /** The token a bearer header carries. */
  function TokenOf(header: string): Option<string> {
    if |header| > 7 && header[..7] == "Bearer " then Some(header[7..]) else None
  }

  /** The header gives back exactly the user's access token. */
  lemma AuthHeaderCarriesToken(user: Option<User>)
    ensures AuthHeader(user).Some? ==> TokenOf(AuthHeader(user).value) == user.value.accessToken
  {
    if AuthHeader(user).Some? {
      var t := user.value.accessToken.value;
      assert ("Bearer " + t)[7..] == t;
    }
  }

  /** The provider's state over the shared storage. */
  class AuthProvider {
    const store: Storage
    var user: Option<User>

    constructor (store: Storage)
      ensures this.store == store && user == None
    {
      this.store := store;
      user := None;
    }

    /** The restore effect, run once on mount. */
    method RestoreSession(parse: string -> Option<User>)
      modifies this, store
      ensures store.entries == Restore(old(store.entries), parse).entries
      ensures user == if Restore(old(store.entries), parse).user.Some? then Restore(old(store.entries), parse).user else old(user)
    {
      var stored := store.GetItem(UserKey);
      if stored.None? || stored.value == "" {
        return;
      }
      var parsed := parse(stored.value);
      if parsed.None? {
        store.RemoveItem(UserKey);
        return;
      }
      if parsed.value.id != "" && !IsValidUUID(parsed.value.id) {
        store.RemoveItem(UserKey);
        store.RemoveItem(AccessTokenKey);
        store.RemoveItem(RefreshTokenKey);
        assert store.entries == old(store.entries) - SessionKeys;
        return;
      }
      user := parsed;
    }

    /** `saveUser` (the context's `setUser`): storage follows `Saved`, and the
        state is the argument. */
    method SaveUser(u: Option<User>, stringify: User -> string)
      modifies this, store
      ensures store.entries == Saved(old(store.entries), u, stringify)
      ensures user == u
    {
      if u.Some? {
        store.SetItem(UserKey, stringify(u.value));
      } else {
        store.RemoveItem(UserKey);
        store.RemoveItem(AccessTokenKey);
        store.RemoveItem(RefreshTokenKey);
        assert store.entries == old(store.entries) - SessionKeys;
      }
      user := u;
    }

    /** `logout`: exactly `saveUser(null)`. */
    method Logout(stringify: User -> string)
      modifies this, store
      ensures store.entries == Saved(old(store.entries), None, stringify)
      ensures user == None
    {
      SaveUser(None, stringify);
    }

    /** `getAuthHeader` on the current state. */
    function GetAuthHeader(): (h: Option<string>)
      reads this
      ensures h == AuthHeader(user)
    {
      AuthHeader(user)
    }
  }
}

=== FILE: call_context.dfy ===
/** The call provider: one peer connection at a time, the incoming call, the
    local and remote streams, and the ordered trace of browser and socket
    effects it issues. Media, peer connections and the socket are outside the
    model: their handles are inputs and their calls are trace entries. */
module CallContext {
  import opened Wrappers
  import opened Schema

  /** A call offered to this user by the socket's `incoming-call` event. */
  datatype IncomingCall = IncomingCall(fromUserId: UserId, offer: string, video: bool)

  /** A peer connection handle and the user its candidates are sent to. */
  datatype Peer = Peer(handle: nat, toUserId: UserId)

  /** The events the provider emits on the socket. */
  datatype SocketEvent =
    | RegisterUser(userId: UserId)
    | CallUser(toUserId: UserId, video: bool)
    | AnswerCall(toUserId: UserId)
    | IceCandidateOut(toUserId: UserId, candidate: string)
    | EndCallEvent

  /** One effect on the outside world, in the order issued. */
  datatype Effect =
    | GetUserMedia(audio: bool, video: bool)
    | CreatePeer(handle: nat, toUserId: UserId)
    | AddTracks(handle: nat, stream: nat)
    | CreateOffer(handle: nat)
    | CreateAnswer(handle: nat)
    | SetLocalDescription(handle: nat)
    | SetRemoteDescription(handle: nat, description: string)
    | AddIceCandidate(handle: nat, candidate: string)
    | StopTracks(stream: nat)
    | ClosePeer(handle: nat)
    | Emit(event: SocketEvent)

  /** What `startCall` issues once media is granted: the peer, all tracks, the
      offer, the offer as local description, then `call-user`. */
  function StartCallEffects(handle: nat, to: UserId, stream: nat, video: bool): seq<Effect> {
    [CreatePeer(handle, to), AddTracks(handle, stream), CreateOffer(handle), SetLocalDescription(handle),
     Emit(CallUser(to, video))]
  }

  /** What `acceptCall` issues once media is granted: the peer, the offer as
      remote description, all tracks, the answer, the answer as local
      description, then `answer-call` to the caller. */
  function AcceptEffects(handle: nat, call: IncomingCall, stream: nat): seq<Effect> {
    [CreatePeer(handle, call.fromUserId), SetRemoteDescription(handle, call.offer), AddTracks(handle, stream),
     CreateAnswer(handle), SetLocalDescription(handle), Emit(AnswerCall(call.fromUserId))]
  }

  /** The cleanup shared by `endCall` and `call-ended`: stop the local tracks,
      then the remote ones, then close the peer, each only if present. */
  function Teardown(local: Option<nat>, remote: Option<nat>, peer: Option<Peer>): (e: seq<Effect>)
    ensures forall i :: 0 <= i < |e| ==> !e[i].Emit?
    ensures local.Some? ==> StopTracks(local.value) in e
    ensures remote.Some? ==> StopTracks(remote.value) in e
    ensures peer.Some? ==> |e| > 0 && e[|e| - 1] == ClosePeer(peer.value.handle)
    ensures peer.None? ==> forall i :: 0 <= i < |e| ==> e[i].StopTracks?
  {
    (if local.Some? then [StopTracks(local.value)] else [])
      + (if remote.Some? then [StopTracks(remote.value)] else [])
      + (if peer.Some? then [ClosePeer(peer.value.handle)] else [])
  }

  /** The position of the first occurrence of `x` in `s`. */
  function IndexOf(s: seq<Effect>, x: Effect): (i: nat)
    requires x in s
    ensures i < |s| && s[i] == x && forall j :: 0 <= j < i ==> s[j] != x
  {
    if s[0] == x then 0 else 1 + IndexOf(s[1..], x)
  }

  /** `startCall` adds every track before creating the offer, sets the offer
      before announcing it, and announces it last. */
  lemma StartCallOrder(handle: nat, to: UserId, stream: nat, video: bool)
    ensures var e := StartCallEffects(handle, to, stream, video);
      && IndexOf(e, AddTracks(handle, stream)) < IndexOf(e, CreateOffer(handle))
      && IndexOf(e, CreateOffer(handle)) < IndexOf(e, SetLocalDescription(handle))
      && e[|e| - 1] == Emit(CallUser(to, video))
  {
    var e := StartCallEffects(handle, to, stream, video);
    assert e[1] == AddTracks(handle, stream) && e[2] == CreateOffer(handle) && e[3] == SetLocalDescription(handle);
  }

  /** `acceptCall` sets the remote description before adding tracks, adds the
      tracks before creating the answer, sets the answer before sending it,
      and sends it last. */
  lemma AcceptOrder(handle: nat, call: IncomingCall, stream: nat)
    ensures var e := AcceptEffects(handle, call, stream);
      && IndexOf(e, SetRemoteDescription(handle, call.offer)) < IndexOf(e, AddTracks(handle, stream))
      && IndexOf(e, AddTracks(handle, stream)) < IndexOf(e, CreateAnswer(handle))
      && IndexOf(e, CreateAnswer(handle)) < IndexOf(e, SetLocalDescription(handle))
      && e[|e| - 1] == Emit(AnswerCall(call.fromUserId))
  {
    var e := AcceptEffects(handle, call, stream);
    assert e[1] == SetRemoteDescription(handle, call.offer) && e[2] == AddTracks(handle, stream);
    assert e[3] == CreateAnswer(handle) && e[4] == SetLocalDescription(handle);
  }

  class CallProvider {
    /** The signed-in user's id, from the auth provider. */
    const userId: Option<UserId>
    var peer: Option<Peer>
    var incomingCall: Option<IncomingCall>
    var localStream: Option<nat>
    var remoteStream: Option<nat>
    /** Everything issued so far, in order. */
    var trace: seq<Effect>

    /** A peer exists exactly while there is a local stream, and a remote
        stream only while a peer exists. */
    predicate Valid()
      reads this
    {
      (peer.Some? <==> localStream.Some?) && (remoteStream.Some? ==> peer.Some?)
    }

    constructor (userId: Option<UserId>)
      ensures this.userId == userId && Valid()
      ensures peer == None && incomingCall == None && localStream == None && remoteStream == None && trace == []
    {
      this.userId := userId;
      peer, incomingCall, localStream, remoteStream := None, None, None, None;
      trace := [];
    }

    /** The registration effect: announce the user id when there is one. */
    method Register()
      modifies this
      ensures trace == old(trace) + (if Truthy(userId) then [Emit(RegisterUser(userId.value))] else [])
      ensures peer == old(peer) && incomingCall == old(incomingCall)
      ensures localStream == old(localStream) && remoteStream == old(remoteStream)
    {
      if Truthy(userId) {
        trace := trace + [Emit(RegisterUser(userId.value))];
      }
    }

    /** `startCall(to, video)`. `media` is the granted stream (`None` when the
        request is refused, which ends the call attempt); `handle` is the new
        peer connection. */
    method StartCall(to: UserId, video: bool, media: Option<nat>, handle: nat)
      requires Valid()
      modifies this
      ensures Valid() && incomingCall == old(incomingCall)
      ensures media.None? ==>
        trace == old(trace) + [GetUserMedia(true, video)] &&
        peer == old(peer) && localStream == old(localStream) && remoteStream == old(remoteStream)
      ensures media.Some? ==>
        trace == old(trace) + [GetUserMedia(true, video)] + StartCallEffects(handle, to, media.value, video) &&
        peer == Some(Peer(handle, to)) && localStream == media && remoteStream == old(remoteStream)
    {
      trace := trace + [GetUserMedia(true, video)];
      if media.None? {
        return;
      }
      localStream := media;
      peer := Some(Peer(handle, to));
      trace := trace + StartCallEffects(handle, to, media.value, video);
    }

    /** `acceptCall`: nothing without an incoming call or with a peer already
        present; otherwise media is requested with the offer's video flag and,
        once granted, the call is answered and the incoming call cleared. */
    method AcceptCall(media: Option<nat>, handle: nat)
      requires Valid()
      modifies this
      ensures Valid()
      ensures old(incomingCall).None? || old(peer).Some? ==>
        trace == old(trace) && peer == old(peer) && incomingCall == old(incomingCall) &&
        localStream == old(localStream) && remoteStream == old(remoteStream)
      ensures old(incomingCall).Some? && old(peer).None? ==>
        var call := old(incomingCall).value;
        if media.None? then
          trace == old(trace) + [GetUserMedia(true, call.video)] &&
          peer == None && incomingCall == old(incomingCall) && localStream == old(localStream) && remoteStream == old(remoteStream)
        else
          trace == old(trace) + [GetUserMedia(true, call.video)] + AcceptEffects(handle, call, media.value) &&
          peer == Some(Peer(handle, call.fromUserId)) && incomingCall == None &&
          localStream == media && remoteStream == old(remoteStream)
    {
      if incomingCall.None? || peer.Some? {
        return;
      }
      var call := incomingCall.value;
      trace := trace + [GetUserMedia(true, call.video)];
      if media.None? {
        return;
      }
      localStream := media;
      peer := Some(Peer(handle, call.fromUserId));
      trace := trace + AcceptEffects(handle, call, media.value);
      incomingCall := None;
    }

    /** The cleanup of both `endCall` and `call-ended`. */
    method TearDown()
      modifies this
      ensures trace == old(trace) + Teardown(old(localStream), old(remoteStream), old(peer))
      ensures peer == None && incomingCall == None && localStream == None && remoteStream == None
    {
      trace := trace + Teardown(localStream, remoteStream, peer);
      localStream, remoteStream, incomingCall := None, None, None;
      peer := None;
    }

    /** `endCall`: the cleanup, then `end-call`. */
    method EndCall()
      modifies this
      ensures Valid()
      ensures trace == old(trace) + Teardown(old(localStream), old(remoteStream), old(peer)) + [Emit(EndCallEvent)]
      ensures peer == None && incomingCall == None && localStream == None && remoteStream == None
    {
      TearDown();
      trace := trace + [Emit(EndCallEvent)];
    }

    /** A remote `call-ended`: the same cleanup, with nothing emitted. */
    method OnCallEnded()
      modifies this
      ensures Valid()
      ensures trace == old(trace) + Teardown(old(localStream), old(remoteStream), old(peer))
      ensures peer == None && incomingCall == None && localStream == None && remoteStream == None
    {
      TearDown();
    }

    /** `incoming-call`: the offer replaces any earlier one. */
    method OnIncomingCall(call: IncomingCall)
      requires Valid()
      modifies this
      ensures Valid() && incomingCall == Some(call)
      ensures trace == old(trace) && peer == old(peer) && localStream == old(localStream) && remoteStream == old(remoteStream)
    {
      incomingCall := Some(call);
    }

    /** `call-accepted`: the answer becomes the peer's remote description; with
        no peer it is ignored. */
    method OnCallAccepted(answer: string)
      requires Valid()
      modifies this
      ensures Valid()
      ensures trace == old(trace) + (if peer.Some? then [SetRemoteDescription(peer.value.handle, answer)] else [])
      ensures peer == old(peer) && incomingCall == old(incomingCall)
      ensures localStream == old(localStream) && remoteStream == old(remoteStream)
    {
      if peer.Some? {
        trace := trace + [SetRemoteDescription(peer.value.handle, answer)];
      }
    }

    /** A received `ice-candidate`: applied to the peer if there is one,
        otherwise dropped; nothing is queued. */
    method OnIceCandidate(candidate: string)
      requires Valid()
      modifies this
      ensures Valid()
      ensures trace == old(trace) + (if peer.Some? then [AddIceCandidate(peer.value.handle, candidate)] else [])
      ensures peer == old(peer) && incomingCall == old(incomingCall)
      ensures localStream == old(localStream) && remoteStream == old(remoteStream)
    {
      if peer.Some? {
        trace := trace + [AddIceCandidate(peer.value.handle, candidate)];
      }
    }

    /** The peer found a local candidate (`None` for the end-of-candidates
        signal): it is forwarded to the peer's target user. */
    method OnLocalIceCandidate(candidate: Option<string>)
      requires Valid()
      modifies this
      ensures Valid()
      ensures trace == old(trace) +
        (if peer.Some? && candidate.Some? then [Emit(IceCandidateOut(peer.value.toUserId, candidate.value))] else [])
      ensures peer == old(peer) && incomingCall == old(incomingCall)
      ensures localStream == old(localStream) && remoteStream == old(remoteStream)
    {
      if peer.Some? && candidate.Some? {
        trace := trace + [Emit(IceCandidateOut(peer.value.toUserId, candidate.value))];
      }
    }

    /** The peer delivered a remote stream. */
    method OnTrack(stream: nat)
      requires Valid()
      modifies this
      ensures Valid()
      ensures remoteStream == if peer.Some? then Some(stream) else old(remoteStream)
      ensures trace == old(trace) && peer == old(peer) && incomingCall == old(incomingCall) && localStream == old(localStream)
    {
      if peer.Some? {
        remoteStream := Some(stream);
      }
    }
  }

  /** `endCall` and `call-ended` issue the same cleanup and differ only in the
      final `end-call`; the cleanup itself emits nothing. */
  lemma EndCallIsTeardownThenEmit(local: Option<nat>, remote: Option<nat>, peer: Option<Peer>)
    ensures var e := Teardown(local, remote, peer) + [Emit(EndCallEvent)];
      && (forall i :: 0 <= i < |e| && e[i].Emit? ==> i == |e| - 1)
      && e[..|e| - 1] == Teardown(local, remote, peer)
  {
  }
}

=== FILE: chat_context.dfy ===
/** The chat provider: the signed-in user's threads, the sidebar built from
    them, the active thread and its messages, and how realtime insert events,
    thread creation and sending change them. Events are applied one at a time. */
module ChatContext {
  import opened Wrappers
  import opened Text
  import opened Schema

  /** A sidebar entry: the thread and the participant who is not the user. */
  datatype SidebarThread = SidebarThread(id: string, otherUserId: UserId, name: string, profile: Option<string>)

  /** The participant of `t` who is not `me`: `user2` when `me` is `user1`, else `user1`. */
  function OtherParticipant(t: Thread, me: UserId): (other: UserId)
    ensures other == t.user1 || other == t.user2
    ensures (me == t.user1 || me == t.user2) && t.user1 != t.user2 ==> other != me && Joins(t, me, other)
  {
    if t.user1 == me then t.user2 else t.user1
  }

  /** `users.find(u => u.id === id)`: a row with that id, if there is one. */
  function FindUser(users: seq<UserRow>, id: UserId): (r: Option<UserRow>)
    ensures r.None? <==> forall u :: u in users ==> u.id != id
    ensures r.Some? ==> r.value in users && r.value.id == id
  {
    if users == [] then None
    else if users[0].id == id then Some(users[0])
    else FindUser(users[1..], id)
  }

  /** The row found is the first one with that id. */
  lemma {:induction false} FindUserIsFirst(users: seq<UserRow>, id: UserId, k: nat)
    requires k < |users| && users[k].id == id
    requires forall j :: 0 <= j < k ==> users[j].id != id
    ensures FindUser(users, id) == Some(users[k])
  {
    if k > 0 {
      assert users[1..][k - 1] == users[k];
      FindUserIsFirst(users[1..], id, k - 1);
    }
  }

  /** The sidebar entry for one thread, given the user rows the lookup returned. */
  function SidebarEntry(t: Thread, me: UserId, users: seq<UserRow>): SidebarThread {
    var other := OtherParticipant(t, me);
    var profile := FindUser(users, other);
    SidebarThread(
      t.id, other,
      if profile.Some? && Truthy(profile.value.name) then profile.value.name.value else "Unknown",
      if profile.Some? && Truthy(profile.value.profileImage) then profile.value.profileImage else None)
  }

  /** The sidebar: empty without a user id or without threads; otherwise one
      entry per thread, in thread order, each naming the other participant. */
  function BuildSidebar(me: Option<UserId>, threads: seq<Thread>, users: seq<UserRow>): (r: seq<SidebarThread>)
    ensures !Truthy(me) || threads == [] ==> r == []
    ensures Truthy(me) ==> |r| == |threads|
    ensures Truthy(me) ==> forall i :: 0 <= i < |r| ==>
      && r[i].id == threads[i].id
      && r[i].otherUserId == OtherParticipant(threads[i], me.value)
      && (FindUser(users, r[i].otherUserId).None? ==> r[i].name == "Unknown" && r[i].profile == None)
      && (FindUser(users, r[i].otherUserId).Some? ==>
            && r[i].name == Or(FindUser(users, r[i].otherUserId).value.name, "Unknown")
            && r[i].profile == (if Truthy(FindUser(users, r[i].otherUserId).value.profileImage)
                                then FindUser(users, r[i].otherUserId).value.profileImage else None))
  {
    if !Truthy(me) || |threads| == 0 then []
    else seq(|threads|, i requires 0 <= i < |threads| => SidebarEntry(threads[i], me.value, users))
  }

  /** A sidebar entry for a user row with a non-empty name shows that name. */
  lemma SidebarShowsKnownName(me: UserId, threads: seq<Thread>, users: seq<UserRow>, i: nat)
    requires me != "" && i < |threads|
    requires FindUser(users, OtherParticipant(threads[i], me)).Some?
    requires Truthy(FindUser(users, OtherParticipant(threads[i], me)).value.name)
    ensures BuildSidebar(Some(me), threads, users)[i].name == FindUser(users, OtherParticipant(threads[i], me)).value.name.value
  {
  }

  /** No two entries share an id. */
  predicate UniqueMessageIds(messages: seq<Message>) {
    forall i, j :: 0 <= i < j < |messages| ==> messages[i].id != messages[j].id
  }

  predicate HasMessageId(messages: seq<Message>, id: int) {
    exists i :: 0 <= i < |messages| && messages[i].id == id
  }

  /** The realtime message handler: a message whose id is already listed leaves
      the list as it is; any other is appended at the end. */
  function InsertMessage(messages: seq<Message>, m: Message): (r: seq<Message>)
    ensures |messages| <= |r| <= |messages| + 1 && r[..|messages|] == messages
    ensures HasMessageId(r, m.id)
    ensures |r| == |messages| + 1 ==> r[|messages|] == m
    ensures |r| == |messages| + 1 <==> !HasMessageId(messages, m.id)
  {
    if HasMessageId(messages, m.id) then messages
    else
      var r := messages + [m];
      assert r[|messages|].id == m.id;
      r
  }

  /** Duplicate delivery is harmless: applying an event twice equals applying it once. */
  lemma InsertMessageIdempotent(messages: seq<Message>, m: Message)
    ensures InsertMessage(InsertMessage(messages, m), m) == InsertMessage(messages, m)
  {
    var once := InsertMessage(messages, m);
    if !HasMessageId(messages, m.id) {
      assert once[|messages|].id == m.id;
    }
  }

  /** The handler never lists the same id twice, and it appends exactly when the id is new. */
  lemma InsertMessageKeepsIdsUnique(messages: seq<Message>, m: Message)
    requires UniqueMessageIds(messages)
    ensures UniqueMessageIds(InsertMessage(messages, m))
    ensures |InsertMessage(messages, m)| == |messages| + 1 <==> !HasMessageId(messages, m.id)
  {
  }

  predicate UniqueThreadIds(threads: seq<Thread>) {
    forall i, j :: 0 <= i < j < |threads| ==> threads[i].id != threads[j].id
  }

  predicate HasThreadId(threads: seq<Thread>, id: string) {
    exists i :: 0 <= i < |threads| && threads[i].id == id
  }

  /** The realtime thread handler: a thread the user takes part in is put in
      front unless a thread with its id is already listed; others are ignored. */
  function InsertThread(threads: seq<Thread>, me: UserId, t: Thread): (r: seq<Thread>)
    ensures r == threads || r == [t] + threads
    ensures r == [t] + threads <==> (t.user1 == me || t.user2 == me) && !HasThreadId(threads, t.id)
  {
    if (t.user1 == me || t.user2 == me) && !HasThreadId(threads, t.id) then [t] + threads else threads
  }

  /** The thread handler keeps the list free of duplicate ids and is idempotent. */
  lemma InsertThreadKeepsIdsUnique(threads: seq<Thread>, me: UserId, t: Thread)
    requires UniqueThreadIds(threads)
    ensures UniqueThreadIds(InsertThread(threads, me, t))
    ensures InsertThread(InsertThread(threads, me, t), me, t) == InsertThread(threads, me, t)
  {
    var once := InsertThread(threads, me, t);
    if once == [t] + threads {
      assert once[0].id == t.id;
      forall i, j | 0 <= i < j < |once| ensures once[i].id != once[j].id {
        if i == 0 { assert once[j] == threads[j - 1]; }
        else { assert once[i] == threads[i - 1] && once[j] == threads[j - 1]; }
      }
    }
  }

  /** `createOrGetThread` prepends the created thread without the check the
      realtime handler makes: when the insert event of that very thread is
      applied first, the thread ends up listed twice; in the other order the
      event is absorbed. */
  lemma CreatedThreadAfterEchoIsDuplicated(threads: seq<Thread>, me: UserId, t: Thread)
    requires t.user1 == me && !HasThreadId(threads, t.id)
    ensures !UniqueThreadIds([t] + InsertThread(threads, me, t))
    ensures InsertThread([t] + threads, me, t) == [t] + threads
  {
    var dup := [t] + InsertThread(threads, me, t);
    assert dup[0] == t && dup[1] == t;
    assert HasThreadId([t] + threads, t.id) by { assert ([t] + threads)[0].id == t.id; }
  }

  /** The chat provider's state. The tables it writes through the database API
      are the shared `db`; the signed-in user comes from the auth provider. */
  class ChatProvider {
    const db: Database
    var userId: Option<UserId>
    var threads: seq<Thread>
    var sidebarThreads: seq<SidebarThread>
    var activeThread: Option<Thread>
    var messages: seq<Message>

    constructor (db: Database, userId: Option<UserId>)
      ensures this.db == db && this.userId == userId
      ensures threads == [] && sidebarThreads == [] && activeThread == None && messages == []
    {
      this.db := db;
      this.userId := userId;
      threads, sidebarThreads, activeThread, messages := [], [], None, [];
    }

    /** `setActiveThread`. */
    method SetActiveThread(t: Option<Thread>)
      modifies this
      ensures activeThread == t
      ensures userId == old(userId) && threads == old(threads) && sidebarThreads == old(sidebarThreads) && messages == old(messages)
    {
      activeThread := t;
    }

    /** The thread fetch on sign-in: `reply` is the server's answer (empty on error). */
    method LoadThreads(reply: seq<Thread>)
      modifies this
      ensures threads == if Truthy(userId) then reply else old(threads)
      ensures userId == old(userId) && sidebarThreads == old(sidebarThreads) && activeThread == old(activeThread) && messages == old(messages)
    {
      if Truthy(userId) {
        threads := reply;
      }
    }

    /** The sidebar effect: `users` is the reply of the user-row lookup. */
    method RebuildSidebar(users: seq<UserRow>)
      modifies this
      ensures sidebarThreads == BuildSidebar(userId, threads, users)
      ensures userId == old(userId) && threads == old(threads) && activeThread == old(activeThread) && messages == old(messages)
    {
      sidebarThreads := BuildSidebar(userId, threads, users);
    }

    /** The message fetch effect: with no active thread id the list is emptied;
        otherwise it becomes `reply`, the server's answer. */
    method SyncMessages(reply: seq<Message>)
      modifies this
      ensures messages == if activeThread.Some? && activeThread.value.id != "" then reply else []
      ensures userId == old(userId) && threads == old(threads) && sidebarThreads == old(sidebarThreads) && activeThread == old(activeThread)
    {
      if activeThread.None? || activeThread.value.id == "" {
        messages := [];
      } else {
        messages := reply;
      }
    }

    /** A realtime message insert. The channel exists only while a thread is
        active and delivers only rows of that thread. */
    method OnMessageInserted(m: Message)
      modifies this
      ensures messages == if activeThread.Some? && activeThread.value.id != "" && m.threadId == activeThread.value.id
                          then InsertMessage(old(messages), m) else old(messages)
      ensures userId == old(userId) && threads == old(threads) && sidebarThreads == old(sidebarThreads) && activeThread == old(activeThread)
    {
      if activeThread.Some? && activeThread.value.id != "" && m.threadId == activeThread.value.id {
        messages := InsertMessage(messages, m);
      }
    }

    /** A realtime thread insert. The channel exists only while a user id is known. */
    method OnThreadInserted(t: Thread)
      modifies this
      ensures threads == if Truthy(userId) then InsertThread(old(threads), userId.value, t) else old(threads)
      ensures userId == old(userId) && sidebarThreads == old(sidebarThreads) && activeThread == old(activeThread) && messages == old(messages)
    {
      if Truthy(userId) {
        threads := InsertThread(threads, userId.value, t);
      }
    }

    /** `createOrGetThread(other)`. Without a user id nothing happens. A unique
        existing thread for the pair, in either ordering, becomes active and is
        returned without an insert. Otherwise `{user1: me, user2: other}` is
        inserted; the server assigns `newId` and `now`, and `insertOk` is false
        when it refuses the row. */
    method CreateOrGetThread(other: UserId, newId: string, now: string, insertOk: bool) returns (r: Option<Thread>)
      modifies this, db
      ensures userId == old(userId) && sidebarThreads == old(sidebarThreads) && messages == old(messages)
      ensures db.messages == old(db.messages) && db.codes == old(db.codes)
      ensures !Truthy(userId) ==>
        r == None && threads == old(threads) && activeThread == old(activeThread) && db.threads == old(db.threads)
      ensures Truthy(userId) && FindPairThread(old(db.threads), userId.value, other).Some? ==>
        && r == FindPairThread(old(db.threads), userId.value, other)
        && activeThread == r && threads == old(threads) && db.threads == old(db.threads)
      ensures Truthy(userId) && FindPairThread(old(db.threads), userId.value, other).None? ==>
        var created := Thread(newId, userId.value, other, now);
        if insertOk then
          r == Some(created) && activeThread == r &&
          threads == [created] + old(threads) && db.threads == old(db.threads) + [created]
        else
          r == None && activeThread == None && threads == old(threads) && db.threads == old(db.threads)
    {
      if !Truthy(userId) {
        return None;
      }
      var me := userId.value;
      var existing := FindPairThread(db.threads, me, other);
      if existing.Some? {
        activeThread := existing;
        return existing;
      }
      if !insertOk {
        activeThread := None;
        return None;
      }
      var created := Thread(newId, me, other, now);
      db.threads := db.threads + [created];
      activeThread := Some(created);
      threads := [created] + threads;
      r := Some(created);
    }

    /** `sendMessage(content)`: nothing without a user id, without an active
        thread id or for white-space-only content; otherwise one row is
        inserted, addressed to the participant who is not the sender.
        `insertOk` is whether the database accepts the row; a refused insert
        is ignored, so nothing is stored and nothing else happens. */
    method SendMessage(content: string, insertOk: bool)
      modifies db
      ensures db.threads == old(db.threads) && db.codes == old(db.codes)
      ensures db.messages == if !Truthy(userId) || activeThread.None? || activeThread.value.id == "" || Trim(content) == [] || !insertOk
                             then old(db.messages)
                             else old(db.messages) + [NewMessage(activeThread.value.id, userId.value, OtherParticipant(activeThread.value, userId.value), content)]
    {
      if !Truthy(userId) || activeThread.None? || activeThread.value.id == "" || Trim(content) == [] {
        return;
      }
      var t := activeThread.value;
      var receiver := if t.user1 == userId.value then t.user2 else t.user1;
      if insertOk {
        db.messages := db.messages + [NewMessage(t.id, userId.value, receiver, content)];
      }
    }
  }
}

=== FILE: chat_view.dfy ===
/** The conversation pane: day grouping of the message list, the online flag,
    the effect that opens the thread it was given, and the send guard. */
module ChatView {
  import opened Wrappers
  import opened Text
  import opened Schema
  import opened ChatContext

  /** A local calendar date, as `getFullYear`, `getMonth` and `getDate` read it. */
  datatype LocalDate = LocalDate(year: int, month: int, day: int)

  /** `isSameDay`: year, month and day of the month all agree. */
  predicate IsSameDay(a: LocalDate, b: LocalDate) {
    a.year == b.year && a.month == b.month && a.day == b.day
  }

  /** Two dates are the same day exactly when they are the same date; so the
      relation is reflexive, symmetric and transitive. */
  lemma IsSameDayIsEquality(a: LocalDate, b: LocalDate)
    ensures IsSameDay(a, b) <==> a == b
    ensures IsSameDay(a, a) && (IsSameDay(a, b) ==> IsSameDay(b, a))
  {
  }

  /** One entry of the rendered list: a day header carrying the timestamp of
      the message it introduces, or a message. */
  datatype Item = DateHeader(at: string) | MessageItem(msg: Message)

  /** The grouping as a function of the messages: every message in order,
      preceded by a header when it is the first one or its day differs from
      the previous message's. `dayOf` gives the local date of a timestamp
      (`new Date(created_at)`, with `toDateString` telling dates apart). */
  function Grouped(msgs: seq<Message>, dayOf: string -> LocalDate): seq<Item>
  {
    if |msgs| == 0 then [] else Grouped(msgs[..|msgs| - 1], dayOf) + LastBlock(msgs, dayOf)
  }

  /** What the last message adds: a header when it is the first message or
      starts a new day, then the message itself. */
  function LastBlock(msgs: seq<Message>, dayOf: string -> LocalDate): seq<Item>
    requires msgs != []
  {
    var n := |msgs|;
    var m := msgs[n - 1];
    if n == 1 || dayOf(msgs[n - 2].createdAt) != dayOf(m.createdAt)
    then [DateHeader(m.createdAt), MessageItem(m)]
    else [MessageItem(m)]
  }

  /** The messages of a grouping, in order. */
  function MessagesOf(items: seq<Item>): seq<Message>
  {
    if |items| == 0 then [] else MessagesOf(items[..|items| - 1]) + MessageOf(items[|items| - 1])
  }

  /** The message an item carries, if any. */
  function MessageOf(item: Item): seq<Message> {
    if item.MessageItem? then [item.msg] else []
  }

  lemma {:induction false} MessagesOfAppend(a: seq<Item>, b: seq<Item>)
    ensures MessagesOf(a + b) == MessagesOf(a) + MessagesOf(b)
    decreases |b|
  {
    if |b| > 0 {
      var init := b[..|b| - 1];
      AppendInit(a, b);
      MessagesOfAppend(a, init);
      AssocWithLast(MessagesOf(a), MessagesOf(init), MessageOf(b[|b| - 1]));
    } else {
      AppendEmpty(a, b);
    }
  }

  /** Proof helper, a plain sequence identity: dropping the last element of
      `a + b` drops the last element of `b`. */
  lemma AppendInit<T>(a: seq<T>, b: seq<T>)
    requires |b| > 0
    ensures (a + b)[..|a + b| - 1] == a + b[..|b| - 1]
    ensures (a + b)[|a + b| - 1] == b[|b| - 1]
  {
  }

  /** Proof helper, a plain sequence identity. */
  lemma AppendEmpty<T>(a: seq<T>, b: seq<T>)
    requires |b| == 0
    ensures a + b == a
  {
  }

  /** Proof helper, a plain sequence identity. */
  lemma AssocWithLast<T>(x: seq<T>, y: seq<T>, z: seq<T>)
    ensures x + y + z == x + (y + z)
  {
  }

  /** The last block carries the last message and no other. */
  lemma LastBlockMessages(msgs: seq<Message>, dayOf: string -> LocalDate)
    requires msgs != []
    ensures MessagesOf(LastBlock(msgs, dayOf)) == [msgs[|msgs| - 1]]
  {
    var block := LastBlock(msgs, dayOf);
    var m := msgs[|msgs| - 1];
    if |block| == 2 {
      assert block[..1][..0] == [];
      assert MessagesOf(block[..1]) == MessagesOf([]) + MessageOf(block[0]) == [];
      assert MessagesOf(block) == MessagesOf(block[..1]) + MessageOf(block[1]);
    } else {
      assert block[..0] == [];
      assert MessagesOf(block) == MessagesOf([]) + MessageOf(block[0]);
    }
  }

  /** Appending a block that carries the last message to items that carry the
      others gives items that carry them all. */
  lemma MessagesOfStep(g: seq<Item>, b: seq<Item>, msgs: seq<Message>)
    requires msgs != []
    requires MessagesOf(g) == msgs[..|msgs| - 1] && MessagesOf(b) == [msgs[|msgs| - 1]]
    ensures MessagesOf(g + b) == msgs
  {
    MessagesOfAppend(g, b);
    InitPlusLast(msgs);
  }

  /** Proof helper, a plain sequence identity: a non-empty sequence is its
      initial part followed by its last element. */
  lemma InitPlusLast<T>(s: seq<T>)
    requires |s| > 0
    ensures s[..|s| - 1] + [s[|s| - 1]] == s
  {
  }

  /** The grouping has exactly one message item per message, in the original order. */
  lemma {:induction false} GroupedKeepsMessages(msgs: seq<Message>, dayOf: string -> LocalDate)
    ensures MessagesOf(Grouped(msgs, dayOf)) == msgs
    decreases |msgs|
  {
    if msgs != [] {
      var n := |msgs|;
      var init := msgs[..n - 1];
      GroupedKeepsMessages(init, dayOf);
      LastBlockMessages(msgs, dayOf);
      MessagesOfStep(Grouped(init, dayOf), LastBlock(msgs, dayOf), msgs);
    }
  }

  /** Where headers stand in a grouping: the list starts with one (if it is
      not empty); each header is followed by a message item of its own
      timestamp, so no two headers are adjacent; and after a message item comes
      either a message item of the same day or a header and then a message of
      another day. */
  predicate WellGrouped(items: seq<Item>, dayOf: string -> LocalDate) {
    && (items != [] ==> items[0].DateHeader?)
    && (forall k :: 0 <= k < |items| && items[k].DateHeader? ==>
          k + 1 < |items| && items[k + 1].MessageItem? && items[k + 1].msg.createdAt == items[k].at)
    && (forall k :: 0 <= k < |items| - 1 && items[k].MessageItem? ==>
          (items[k + 1].MessageItem? ==> dayOf(items[k + 1].msg.createdAt) == dayOf(items[k].msg.createdAt)) &&
          (items[k + 1].DateHeader? ==> k + 2 < |items| && dayOf(items[k + 2].msg.createdAt) != dayOf(items[k].msg.createdAt)))
  }

  /** The grouping of a non-empty list ends with the last message. */
  lemma GroupedEndsWithLast(msgs: seq<Message>, dayOf: string -> LocalDate)
    requires msgs != []
    ensures var g := Grouped(msgs, dayOf); g != [] && g[|g| - 1] == MessageItem(msgs[|msgs| - 1])
  {
  }

  /** Appending the last message's block keeps a grouping well grouped, when
      the items so far end with the previous message (or are empty for the
      first message). */
  lemma WellGroupedStep(prev: seq<Item>, msgs: seq<Message>, dayOf: string -> LocalDate)
    requires msgs != [] && WellGrouped(prev, dayOf)
    requires prev == [] <==> |msgs| == 1
    requires prev != [] ==> prev[|prev| - 1] == MessageItem(msgs[|msgs| - 2])
    ensures WellGrouped(prev + LastBlock(msgs, dayOf), dayOf)
  {
    HeadersStep(prev, msgs, dayOf);
    MessageItemsStep(prev, msgs, dayOf);
  }

  lemma HeadersStep(prev: seq<Item>, msgs: seq<Message>, dayOf: string -> LocalDate)
    requires msgs != [] && WellGrouped(prev, dayOf)
    requires prev == [] <==> |msgs| == 1
    ensures var g := prev + LastBlock(msgs, dayOf);
      && g[0].DateHeader?
      && forall k :: 0 <= k < |g| && g[k].DateHeader? ==>
           k + 1 < |g| && g[k + 1].MessageItem? && g[k + 1].msg.createdAt == g[k].at
  {
    var g := prev + LastBlock(msgs, dayOf);
    forall k | 0 <= k < |g| && g[k].DateHeader?
      ensures k + 1 < |g| && g[k + 1].MessageItem? && g[k + 1].msg.createdAt == g[k].at
    {
      if k < |prev| {
        assert prev[k].DateHeader?;
      }
    }
  }

  lemma MessageItemsStep(prev: seq<Item>, msgs: seq<Message>, dayOf: string -> LocalDate)
    requires msgs != [] && WellGrouped(prev, dayOf)
    requires prev == [] <==> |msgs| == 1
    requires prev != [] ==> prev[|prev| - 1] == MessageItem(msgs[|msgs| - 2])
    ensures var g := prev + LastBlock(msgs, dayOf);
      forall k :: 0 <= k < |g| - 1 && g[k].MessageItem? ==>
        (g[k + 1].MessageItem? ==> dayOf(g[k + 1].msg.createdAt) == dayOf(g[k].msg.createdAt)) &&
        (g[k + 1].DateHeader? ==> k + 2 < |g| && dayOf(g[k + 2].msg.createdAt) != dayOf(g[k].msg.createdAt))
  {
    var g := prev + LastBlock(msgs, dayOf);
    forall k | 0 <= k < |g| - 1 && g[k].MessageItem?
      ensures (g[k + 1].MessageItem? ==> dayOf(g[k + 1].msg.createdAt) == dayOf(g[k].msg.createdAt)) &&
              (g[k + 1].DateHeader? ==> k + 2 < |g| && dayOf(g[k + 2].msg.createdAt) != dayOf(g[k].msg.createdAt))
    {
      if k < |prev| - 1 {
        assert prev[k].MessageItem?;
      }
    }
  }

  /** Every grouping places its headers exactly at the day changes. */
  lemma {:induction false} GroupedIsWellGrouped(msgs: seq<Message>, dayOf: string -> LocalDate)
    ensures WellGrouped(Grouped(msgs, dayOf), dayOf)
    decreases |msgs|
  {
    if msgs != [] {
      var n := |msgs|;
      var init := msgs[..n - 1];
      var prev := Grouped(init, dayOf);
      GroupedIsWellGrouped(init, dayOf);
      if n > 1 {
        assert init[n - 2] == msgs[n - 2];
        GroupedEndsWithLast(init, dayOf);
      } else {
        assert prev == [];
      }
      WellGroupedStep(prev, msgs, dayOf);
    }
  }

  /** An empty message list gives an empty grouping, and a non-empty one
      always starts with a header. */
  lemma GroupedEmptyIffNoMessages(msgs: seq<Message>, dayOf: string -> LocalDate)
    ensures Grouped(msgs, dayOf) == [] <==> msgs == []
    ensures msgs != [] ==> Grouped(msgs, dayOf)[0].DateHeader?
  {
    if msgs != [] {
      GroupedIsWellGrouped(msgs, dayOf);
    }
  }

  /** `groupedMessages`: one pass over the messages remembering the last day seen. */
  method GroupMessages(msgs: seq<Message>, dayOf: string -> LocalDate) returns (result: seq<Item>)
    ensures result == Grouped(msgs, dayOf)
    ensures MessagesOf(result) == msgs && WellGrouped(result, dayOf)
  {
    result := [];
    var lastDate: Option<LocalDate> := None;
    for i := 0 to |msgs|
      invariant result == Grouped(msgs[..i], dayOf)
      invariant lastDate == if i == 0 then None else Some(dayOf(msgs[i - 1].createdAt))
    {
      var m := msgs[i];
      var date := dayOf(m.createdAt);
      assert msgs[..i + 1][..i] == msgs[..i];
      if lastDate != Some(date) {
        result := result + [DateHeader(m.createdAt)];
        lastDate := Some(date);
      }
      result := result + [MessageItem(m)];
    }
    assert msgs[..|msgs|] == msgs;
    GroupedKeepsMessages(msgs, dayOf);
    GroupedIsWellGrouped(msgs, dayOf);
  }

  /** `isOnline`: the peer is online only when an id is given and it is in the list. */
  function IsOnline(otherUserId: Option<UserId>, onlineUsers: seq<UserId>): (r: bool)
    ensures r <==> Truthy(otherUserId) && otherUserId.value in onlineUsers
  {
    if Truthy(otherUserId) then otherUserId.value in onlineUsers else false
  }

  /** The send button is enabled only for input that is not all white space. */
  predicate SendEnabled(input: string) {
    Trim(input) != []
  }

  /** White-space-only input, and only that, disables sending. */
  lemma SendEnabledIffNotAllSpace(input: string)
    ensures SendEnabled(input) <==> !AllSpace(input)
  {
    TrimEmptyIffAllSpace(input);
  }

  /** The pane's own state on top of the chat provider it reads. */
  class ChatView {
    const chat: ChatProvider
    var messageInput: string

    constructor (chat: ChatProvider)
      ensures this.chat == chat && messageInput == ""
    {
      this.chat := chat;
      messageInput := "";
    }

    /** `handleTyping`: the input follows what is typed. */
    method HandleTyping(value: string)
      modifies this
      ensures messageInput == value
    {
      messageInput := value;
    }

    /** The ensure-thread effect: with no active thread and a connection id, a
        user id and a peer id all present, the thread `{id: connectionId,
        user1: me, user2: peer}` becomes active; otherwise nothing changes.
        `now` is the creation time it is stamped with. */
    method EnsureThread(connectionId: Option<string>, otherUserId: Option<UserId>, now: string)
      modifies chat
      ensures chat.userId == old(chat.userId) && chat.threads == old(chat.threads)
      ensures chat.sidebarThreads == old(chat.sidebarThreads) && chat.messages == old(chat.messages)
      ensures chat.activeThread ==
        if old(chat.activeThread).None? && Truthy(connectionId) && Truthy(chat.userId) && Truthy(otherUserId)
        then Some(Thread(connectionId.value, chat.userId.value, otherUserId.value, now))
        else old(chat.activeThread)
    {
      if chat.activeThread.None? && Truthy(connectionId) && Truthy(chat.userId) && Truthy(otherUserId) {
        chat.SetActiveThread(Some(Thread(connectionId.value, chat.userId.value, otherUserId.value, now)));
      }
    }

    /** `handleSendMessage`: white-space-only input sends nothing and is kept;
        otherwise the provider's `sendMessage` runs and the input is cleared;
        `insertOk` is whether the database accepts the new row. */
    method HandleSendMessage(insertOk: bool)
      modifies this, chat.db
      ensures chat.db.threads == old(chat.db.threads) && chat.db.codes == old(chat.db.codes)
      ensures !SendEnabled(old(messageInput)) ==> messageInput == old(messageInput) && chat.db.messages == old(chat.db.messages)
      ensures SendEnabled(old(messageInput)) ==>
        && messageInput == ""
        && chat.db.messages ==
             if !Truthy(chat.userId) || chat.activeThread.None? || chat.activeThread.value.id == "" || !insertOk
             then old(chat.db.messages)
             else old(chat.db.messages) + [NewMessage(chat.activeThread.value.id, chat.userId.value,
                                                      OtherParticipant(chat.activeThread.value, chat.userId.value), old(messageInput))]
    {
      if !SendEnabled(messageInput) {
        return;
      }
      chat.SendMessage(messageInput, insertOk);
      messageInput := "";
    }
  }
}

=== FILE: code_card.dfy ===
/** The connection-code card: redeeming someone else's code (an ordered
    validator over the `connection_code` table, a single-use update of the row
    and the creation of a thread for the pair if none exists) and asking for a
    fresh code of one's own. */
module CodeCard {
  import opened Wrappers
  import opened Text
  import opened Schema

  /** The code length: the input's `maxLength` and the least trimmed length that enables Connect. */
  const MinCodeLength: nat := 6

  /** What an input with `maxLength` 6 keeps of the text typed or pasted into it. */
  function CappedInput(typed: string): (r: string)
    ensures |r| <= MinCodeLength && r <= typed
    ensures |typed| <= MinCodeLength ==> r == typed
  {
    Take(typed, MinCodeLength)
  }

  /** The Connect button is enabled. */
  predicate ConnectEnabled(isVerifying: bool, input: string) {
    !isVerifying && |Trim(input)| >= MinCodeLength
  }

  /** Since the input holds at most six characters, Connect is enabled only for
      exactly six characters with no white space at either end, and never
      while a verification is running. */
  lemma ConnectEnabledMeansSixCleanCharacters(isVerifying: bool, typed: string)
    requires ConnectEnabled(isVerifying, CappedInput(typed))
    ensures !isVerifying
    ensures |CappedInput(typed)| == MinCodeLength && Trim(CappedInput(typed)) == CappedInput(typed)
  {
    var s := CappedInput(typed);
    var t := TrimStart(s);
    assert |t| == |s|;
    assert t == s[0..];
    assert TrimEnd(t) == t[..|t|];
  }

  /** A row the lookup accepts: the entered code, not yet used, not yet expired. */
  predicate Usable(row: CodeRow, input: string, now: int) {
    row.code == input && !row.verified && row.expiresAt > now
  }

  /** The rows the lookup `code = input, verified = false, expires_at > now` selects, in table order. */
  function UsableRows(codes: seq<CodeRow>, input: string, now: int): (r: seq<CodeRow>)
    ensures forall row :: row in r <==> row in codes && Usable(row, input, now)
  {
    if codes == [] then []
    else
      var last := codes[|codes| - 1];
      UsableRows(codes[..|codes| - 1], input, now) + (if Usable(last, input, now) then [last] else [])
  }

  /** The verdict of the validator, checked in this order. */
  datatype Redemption =
    | OwnCode            // the input is the user's own current code
    | InvalidOrExpired   // the lookup found no single usable row
    | OwnerMissing       // the row has no owner
    | AccountNotReady    // the signed-in user has no id
    | SelfVerification   // the row belongs to the user
    | Redeemable(row: CodeRow)

  /** The inline message shown for a rejection. */
  function RejectionText(r: Redemption): string
    requires !r.Redeemable?
  {
    match r
    case OwnCode => "You cannot use your own code!"
    case InvalidOrExpired => "Invalid or expired code!"
    case OwnerMissing => "Invalid code (owner missing)."
    case AccountNotReady => "Your account is not ready yet. Try again."
    case SelfVerification => "You cannot verify your own code!"
  }

  /** The validation part of `handleVerify` for user id `me`. */
  function Redeem(me: UserId, currentCode: Option<string>, input: string, codes: seq<CodeRow>, now: int): (r: Redemption)
    ensures r == OwnCode <==> currentCode == Some(input)
    ensures currentCode != Some(input) && |UsableRows(codes, input, now)| != 1 ==> r == InvalidOrExpired
    ensures r.Redeemable? ==>
      && r.row in codes && Usable(r.row, input, now)
      && UsableRows(codes, input, now) == [r.row]
      && Truthy(r.row.ownerUserId) && me != "" && r.row.ownerUserId.value != me
  {
    if currentCode == Some(input) then OwnCode
    else
      match MaybeSingle(UsableRows(codes, input, now))
      case None => InvalidOrExpired
      case Some(row) =>
        assert row in UsableRows(codes, input, now);
        if !Truthy(row.ownerUserId) then OwnerMissing
        else if me == "" then AccountNotReady
        else if row.ownerUserId.value == me then SelfVerification
        else Redeemable(row)
  }

  /** A usable row is rejected when it has no owner or when its owner is the
      user, and accepted otherwise (given a user id and a different own code). */
  lemma RedeemOwnerRules(me: UserId, currentCode: Option<string>, input: string, codes: seq<CodeRow>, now: int, row: CodeRow)
    requires currentCode != Some(input) && me != ""
    requires UsableRows(codes, input, now) == [row]
    ensures !Truthy(row.ownerUserId) ==> Redeem(me, currentCode, input, codes, now) == OwnerMissing
    ensures Truthy(row.ownerUserId) && row.ownerUserId.value == me ==> Redeem(me, currentCode, input, codes, now) == SelfVerification
    ensures Truthy(row.ownerUserId) && row.ownerUserId.value != me ==> Redeem(me, currentCode, input, codes, now) == Redeemable(row)
  {
  }

  /** The update of an accepted row: every row with its id is marked used by
      `me`; no other field and no other row changes. */
  function MarkRedeemed(codes: seq<CodeRow>, id: int, me: UserId): (r: seq<CodeRow>)
    ensures |r| == |codes|
    ensures forall i :: 0 <= i < |codes| ==>
      && r[i].id == codes[i].id && r[i].code == codes[i].code
      && r[i].ownerUserId == codes[i].ownerUserId && r[i].expiresAt == codes[i].expiresAt
      && (codes[i].id == id ==> r[i].verified && r[i].connectedUserId == Some(me))
      && (codes[i].id != id ==> r[i] == codes[i])
  {
    seq(|codes|, i requires 0 <= i < |codes| =>
      if codes[i].id == id then codes[i].(verified := true, connectedUserId := Some(me)) else codes[i])
  }

  /** Marking the only usable row leaves no usable row with its id. */
  lemma {:induction false} MarkRedeemedRemovesUsable(codes: seq<CodeRow>, id: int, me: UserId, input: string, now: int)
    ensures forall row :: row in UsableRows(MarkRedeemed(codes, id, me), input, now) ==> row.id != id
    ensures forall row :: row in UsableRows(MarkRedeemed(codes, id, me), input, now) ==> row in UsableRows(codes, input, now)
  {
    var marked := MarkRedeemed(codes, id, me);
    forall row | row in UsableRows(marked, input, now)
      ensures row.id != id && row in UsableRows(codes, input, now)
    {
      var i :| 0 <= i < |marked| && marked[i] == row;
      assert codes[i] == row;
    }
  }

  /** A code is single-use: once its row is marked, entering it again is
      rejected as invalid or expired. */
  lemma RedeemedCodeIsSingleUse(me: UserId, currentCode: Option<string>, input: string, codes: seq<CodeRow>, now: int, later: int)
    requires Redeem(me, currentCode, input, codes, now).Redeemable?
    requires later >= now
    ensures Redeem(me, currentCode, input, MarkRedeemed(codes, Redeem(me, currentCode, input, codes, now).row.id, me), later) == InvalidOrExpired
  {
    var row := Redeem(me, currentCode, input, codes, now).row;
    var marked := MarkRedeemed(codes, row.id, me);
    MarkRedeemedRemovesUsable(codes, row.id, me, input, later);
    var after := UsableRows(marked, input, later);
    assert forall x :: x in after ==> x.id != row.id && x in UsableRows(codes, input, now);
  }

  /** The card's state: the text field, the progress flag, the inline messages
      and the current own code held by the connection provider. */
  class CodeCard {
    const db: Database
    var user: Option<UserId>
    var currentCode: Option<string>
    var codeInput: string
    var isVerifying: bool
    var error: Option<string>
    var success: Option<string>

    constructor (db: Database, user: Option<UserId>, currentCode: Option<string>)
      ensures this.db == db && this.user == user && this.currentCode == currentCode
      ensures codeInput == "" && !isVerifying && error == None && success == None
    {
      this.db, this.user, this.currentCode := db, user, currentCode;
      codeInput, isVerifying, error, success := "", false, None, None;
    }

    /** Typing into the input. */
    method OnInputChange(typed: string)
      modifies this
      ensures codeInput == CappedInput(typed)
      ensures user == old(user) && currentCode == old(currentCode) && isVerifying == old(isVerifying)
      ensures error == old(error) && success == old(success)
    {
      codeInput := CappedInput(typed);
    }

    /** `handleGenerate`: without a user nothing changes; otherwise the messages
        are cleared and the code becomes `generated` when the provider obtained one. */
    method HandleGenerate(generated: Option<string>)
      modifies this
      ensures user == old(user) && codeInput == old(codeInput) && isVerifying == old(isVerifying)
      ensures old(user).None? ==> currentCode == old(currentCode) && error == old(error) && success == old(success)
      ensures old(user).Some? ==> error == None && success == None &&
                                  currentCode == if generated.Some? then generated else old(currentCode)
    {
      if user.None? {
        return;
      }
      error, success := None, None;
      if generated.Some? {
        currentCode := generated;
      }
    }

    /** `handleVerify` at instant `now`. `updateOk` says whether the update of
        the accepted row succeeded and returned it; `newThreadId`, `createdAt`
        and `insertOk` are the server's side of the thread insert; `freshCode`
        is what the refresh of the own code obtained. */
    method HandleVerify(now: int, updateOk: bool, newThreadId: string, createdAt: string, insertOk: bool, freshCode: Option<string>)
      modifies this, db
      ensures user == old(user) && db.messages == old(db.messages)
      ensures old(user).None? ==>
        && codeInput == old(codeInput) && isVerifying == old(isVerifying) && error == old(error)
        && success == old(success) && currentCode == old(currentCode)
        && db.codes == old(db.codes) && db.threads == old(db.threads)
      ensures old(user).Some? ==>
        var me := old(user).value;
        var verdict := Redeem(me, old(currentCode), old(codeInput), old(db.codes), now);
        && !isVerifying
        && (!verdict.Redeemable? ==>
              && error == Some(RejectionText(verdict)) && success == None
              && codeInput == old(codeInput) && currentCode == old(currentCode)
              && db.codes == old(db.codes) && db.threads == old(db.threads))
        && (verdict.Redeemable? && !updateOk ==>
              && error == Some("Failed to verify code.") && success == None
              && codeInput == old(codeInput) && currentCode == old(currentCode)
              && db.codes == old(db.codes) && db.threads == old(db.threads))
        && (verdict.Redeemable? && updateOk ==>
              var owner := verdict.row.ownerUserId.value;
              && db.codes == MarkRedeemed(old(db.codes), verdict.row.id, me)
              && db.threads == (if FindPairThread(old(db.threads), owner, me).None? && insertOk
                                then old(db.threads) + [Thread(newThreadId, owner, me, createdAt)]
                                else old(db.threads))
              && error == None && success == Some("Connection successful!")
              && codeInput == "" && currentCode == freshCode)
    {
      if user.None? {
        return;
      }
      var me := user.value;
      isVerifying, error, success := true, None, None;

      if currentCode == Some(codeInput) {
        error := Some("You cannot use your own code!");
        isVerifying := false;
        return;
      }

      var found := MaybeSingle(UsableRows(db.codes, codeInput, now));
      if found.None? {
        error := Some("Invalid or expired code!");
        isVerifying := false;
        return;
      }
      var row := found.value;
      if !Truthy(row.ownerUserId) {
        error := Some("Invalid code (owner missing).");
        isVerifying := false;
        return;
      }
      if me == "" {
        error := Some("Your account is not ready yet. Try again.");
        isVerifying := false;
        return;
      }
      if row.ownerUserId.value == me {
        error := Some("You cannot verify your own code!");
        isVerifying := false;
        return;
      }

      if !updateOk {
        error := Some("Failed to verify code.");
        isVerifying := false;
        return;
      }
      db.codes := MarkRedeemed(db.codes, row.id, me);
      var owner := row.ownerUserId.value;

      var existing := FindPairThread(db.threads, owner, me);
      if existing.None? && insertOk {
        db.threads := db.threads + [Thread(newThreadId, owner, me, createdAt)];
      }

      success := Some("Connection successful!");
      codeInput := "";
      currentCode := freshCode;
      isVerifying := false;
    }
  }
}

=== FILE: local_store.dfy ===
/** The browser's `localStorage`: one string per key, shared by the providers
    that persist the session. */
module LocalStore {
  import opened Wrappers

  /** The key under which both session providers keep the signed-in user. */
  const UserKey: string := "networx_user"

  class Storage {
    var entries: map<string, string>

    constructor (entries: map<string, string>)
      ensures this.entries == entries
    {
      this.entries := entries;
    }

    /** `getItem`: the stored string, or `null` for an absent key. */
    function GetItem(key: string): (r: Option<string>)
      reads this
      ensures r.Some? <==> key in entries
      ensures r.Some? ==> r.value == entries[key]
    {
      if key in entries then Some(entries[key]) else None
    }

    /** `setItem`: the key now holds `value`; every other key is untouched. */
    method SetItem(key: string, value: string)
      modifies this
      ensures entries == old(entries)[key := value]
    {
      entries := entries[key := value];
    }

    /** `removeItem`: the key is gone; every other key is untouched. */
    method RemoveItem(key: string)
      modifies this
      ensures entries == old(entries) - {key}
    {
      entries := entries - {key};
    }
  }
}

=== FILE: login.dfy ===
/** The sign-in page: an email step that branches to password login or to an
    emailed one-time code, code verification and password setting. Server
    replies are inputs; alerts, requests and navigation are recorded. */
module Login {
  import opened Wrappers
  import opened Schema
  import opened LocalStore
  import opened AuthContext

  datatype Step = EmailStep | PasswordStep | OtpStep | SetPasswordStep

  /** The card title of each step. */
  function Title(step: Step): string {
    match step
    case EmailStep => "Welcome to Networx"
    case PasswordStep => "Login"
    case OtpStep => "Verify Email"
    case SetPasswordStep => "Set Password"
  }

  /** Every step has its own title. */
  lemma TitlesAreDistinct(a: Step, b: Step)
    ensures Title(a) == Title(b) <==> a == b
  {
  }

  /** The endpoints the page calls, and the `users` lookup after a successful login. */
  datatype Endpoint = CheckEmail | SendOtp | LoginRequest | VerifyOtp | SetPassword | UserLookup

  /** One issued request and whether `loading` was set while it ran. */
  datatype Request = Request(endpoint: Endpoint, whileLoading: bool)

  /** The `{success, error}` answer of the login, OTP and password endpoints. */
  datatype Answer = Answer(success: bool, error: Option<string>)

  /** The `id, email` row the lookup returns. */
  datatype UserRecord = UserRecord(id: UserId, email: string)

  /** `data.error || fallback`. */
  function ErrorOr(error: Option<string>, fallback: string): (r: string)
    requires fallback != ""
    ensures r != ""
    ensures Truthy(error) ==> r == error.value
  {
    if Truthy(error) then error.value else fallback
  }

  const OtpSentAlert: string := "\U{2705} OTP sent to your email"
  const EmailVerifiedAlert: string := "\U{2705} Email verified"

  /** What one handler does, as a value: the step it ends in, the alerts it
      shows, the requests it issues, the user it signs in and where it navigates. */
  datatype Outcome = Outcome(step: Step, alerts: seq<string>, requests: seq<Endpoint>,
                             signedIn: Option<UserRecord>, navigateTo: Option<string>)

  /** `handleCheckEmail`. An empty email does nothing. A known email goes to
      the password step; an unknown one asks for a code first and goes to the
      code step. A thrown request alerts "Server error: ..." and keeps the step. */
  function CheckEmailOutcome(email: string, step: Step, exists_: Reply<bool>, sent: Reply<()>): Outcome {
    if email == "" then Outcome(step, [], [], None, None)
    else match exists_
      case Threw(m) => Outcome(step, ["Server error: " + m], [CheckEmail], None, None)
      case Answered(true) => Outcome(PasswordStep, [], [CheckEmail], None, None)
      case Answered(false) =>
        match sent
        case Threw(m) => Outcome(step, ["Server error: " + m], [CheckEmail, SendOtp], None, None)
        case Answered(_) => Outcome(OtpStep, [OtpSentAlert], [CheckEmail, SendOtp], None, None)
  }

  /** The tail shared by `handleLogin` and `handleSetPassword`: a refused
      answer alerts its error (or the fallback); an accepted one looks the user
      up, signs it in and navigates home, or alerts `prefix` + "User record not
      found" when there is no row. `prefix` is the handler's catch prefix. */
  function SignInOutcome(first: Endpoint, step: Step, reply: Reply<Answer>, lookup: Option<UserRecord>,
                         fallback: string, prefix: string): Outcome
    requires fallback != ""
  {
    match reply
    case Threw(m) => Outcome(step, [prefix + m], [first], None, None)
    case Answered(a) =>
      if !a.success then Outcome(step, [ErrorOr(a.error, fallback)], [first], None, None)
      else if lookup.None? then Outcome(step, [prefix + "User record not found"], [first, UserLookup], None, None)
      else Outcome(step, [], [first, UserLookup], lookup, Some("/home"))
  }

  /** `handleVerifyOtp`. A code whose length is not 6 is refused with an alert
      and no request; otherwise success moves to setting a password and failure
      stays on the code step. */
  function VerifyOtpOutcome(otp: string, step: Step, reply: Reply<Answer>): Outcome {
    if |otp| != 6 then Outcome(step, ["Enter valid 6-digit OTP"], [], None, None)
    else match reply
      case Threw(m) => Outcome(step, ["Server error: " + m], [VerifyOtp], None, None)
      case Answered(a) =>
        if a.success then Outcome(SetPasswordStep, [EmailVerifiedAlert], [VerifyOtp], None, None)
        else Outcome(step, [ErrorOr(a.error, "Invalid OTP")], [VerifyOtp], None, None)
  }

  /** The email step: nothing without an email; otherwise the step moves only on
      an answer, to the password step exactly for a known email and to the code
      step exactly when the code was sent. */
  lemma CheckEmailTransitions(email: string, step: Step, exists_: Reply<bool>, sent: Reply<()>)
    ensures var o := CheckEmailOutcome(email, step, exists_, sent);
      && (email == "" ==> o.requests == [] && o.step == step && o.alerts == [])
      && (email != "" ==> o.requests[0] == CheckEmail && (SendOtp in o.requests <==> exists_ == Answered(false)))
      && (o.step == PasswordStep && step != PasswordStep ==> exists_ == Answered(true))
      && (o.step == OtpStep && step != OtpStep ==> exists_ == Answered(false) && sent.Answered?)
      && (email != "" && exists_ == Answered(true) ==> o.step == PasswordStep)
      && (email != "" && exists_ == Answered(false) && sent.Answered? ==> o.step == OtpStep)
      && o.signedIn == None && o.navigateTo == None
  {
  }

  /** Sign-in never changes the step; it signs in and navigates home exactly
      when the server accepted and the user row was found, and alerts otherwise. */
  lemma SignInTransitions(first: Endpoint, step: Step, reply: Reply<Answer>, lookup: Option<UserRecord>,
                          fallback: string, prefix: string)
    requires fallback != "" && prefix != "" && first != UserLookup
    ensures var o := SignInOutcome(first, step, reply, lookup, fallback, prefix);
      && o.step == step
      && (o.navigateTo.Some? <==> reply.Answered? && reply.answer.success && lookup.Some?)
      && (o.navigateTo.Some? ==> o.navigateTo == Some("/home") && o.signedIn == lookup && o.alerts == [])
      && (o.navigateTo.None? ==> o.signedIn == None && |o.alerts| == 1 && o.alerts[0] != "")
      && (UserLookup in o.requests <==> reply.Answered? && reply.answer.success)
  {
  }

  /** The code step: a wrong-length code issues nothing; success, and only
      success, moves to setting a password. */
  lemma VerifyOtpTransitions(otp: string, step: Step, reply: Reply<Answer>)
    requires step == OtpStep
    ensures var o := VerifyOtpOutcome(otp, step, reply);
      && (|otp| != 6 ==> o.requests == [] && o.step == OtpStep)
      && (o.step == SetPasswordStep <==> |otp| == 6 && reply.Answered? && reply.answer.success)
      && (o.step != SetPasswordStep ==> o.step == OtpStep)
  {
  }

  /** The endpoints of a request trace. */
  function Endpoints(rs: seq<Request>): (es: seq<Endpoint>)
    ensures |es| == |rs| && forall i :: 0 <= i < |rs| ==> es[i] == rs[i].endpoint
  {
    if rs == [] then [] else Endpoints(rs[..|rs| - 1]) + [rs[|rs| - 1].endpoint]
  }

  /** Every request in the trace ran with `loading` set. */
  predicate AllWhileLoading(rs: seq<Request>) {
    forall i :: 0 <= i < |rs| ==> rs[i].whileLoading
  }

  /** The page's state. */
  class LoginPage {
    const auth: AuthProvider
    var email: string
    var otp: string
    var password: string
    var step: Step
    var loading: bool
    /** The alerts shown so far, in order. */
    var alerts: seq<string>
    /** The requests issued so far, in order. */
    var requests: seq<Request>
    /** The route last navigated to, if any. */
    var navigatedTo: Option<string>

    constructor (auth: AuthProvider)
      ensures this.auth == auth && email == "" && otp == "" && password == ""
      ensures step == EmailStep && !loading && alerts == [] && requests == [] && navigatedTo == None
    {
      this.auth := auth;
      email, otp, password := "", "", "";
      step, loading := EmailStep, false;
      alerts, requests, navigatedTo := [], [], None;
    }

    /** Record one request, issued in the current loading state. */
    method Issue(e: Endpoint)
      modifies this
      ensures requests == old(requests) + [Request(e, loading)]
      ensures email == old(email) && otp == old(otp) && password == old(password) && step == old(step)
      ensures loading == old(loading) && alerts == old(alerts) && navigatedTo == old(navigatedTo)
    {
      requests := requests + [Request(e, loading)];
    }

    /** Sign the looked-up user in through the auth provider: `{id, email}` only. */
    method SignIn(row: UserRecord, stringify: User -> string)
      modifies auth, auth.store
      ensures auth.user == Some(User(row.id, row.email, None, None, None))
      ensures auth.store.entries == Saved(old(auth.store.entries), auth.user, stringify)
    {
      auth.SaveUser(Some(User(row.id, row.email, None, None, None)), stringify);
    }

    method HandleCheckEmail(exists_: Reply<bool>, sent: Reply<()>)
      modifies this
      ensures var o := CheckEmailOutcome(old(email), old(step), exists_, sent);
        && step == o.step && alerts == old(alerts) + o.alerts && navigatedTo == old(navigatedTo)
        && |requests| >= |old(requests)| && requests[..|old(requests)|] == old(requests)
        && Endpoints(requests[|old(requests)|..]) == o.requests
        && AllWhileLoading(requests[|old(requests)|..])
      ensures email == old(email) && otp == old(otp) && password == old(password)
      ensures loading == (if old(email) == "" then old(loading) else false)
    {
      if email == "" {
        assert requests[|old(requests)|..] == [];
        return;
      }
      loading := true;
      Issue(CheckEmail);
      match exists_ {
        case Threw(m) =>
          alerts := alerts + ["Server error: " + m];
        case Answered(known) =>
          if known {
            step := PasswordStep;
          } else {
            Issue(SendOtp);
            match sent {
              case Threw(m) =>
                alerts := alerts + ["Server error: " + m];
              case Answered(_) =>
                alerts := alerts + [OtpSentAlert];
                step := OtpStep;
            }
          }
      }
      loading := false;
    }

    /** The body shared by `handleLogin` and `handleSetPassword`. */
    method SignInFlow(first: Endpoint, reply: Reply<Answer>, lookup: Option<UserRecord>,
                      fallback: string, prefix: string, stringify: User -> string)
      requires fallback != ""
      modifies this, auth, auth.store
      ensures var o := SignInOutcome(first, old(step), reply, lookup, fallback, prefix);
        && step == o.step && alerts == old(alerts) + o.alerts
        && navigatedTo == (if o.navigateTo.Some? then o.navigateTo else old(navigatedTo))
        && |requests| >= |old(requests)| && requests[..|old(requests)|] == old(requests)
        && Endpoints(requests[|old(requests)|..]) == o.requests
        && AllWhileLoading(requests[|old(requests)|..])
        && (if o.signedIn.Some?
            then auth.user == Some(User(o.signedIn.value.id, o.signedIn.value.email, None, None, None)) &&
                 auth.store.entries == Saved(old(auth.store.entries), auth.user, stringify)
            else auth.user == old(auth.user) && auth.store.entries == old(auth.store.entries))
      ensures email == old(email) && otp == old(otp) && password == old(password) && !loading
    {
      ghost var start := |requests|;
      loading := true;
      Issue(first);
      match reply {
        case Threw(m) =>
          alerts := alerts + [prefix + m];
          assert requests[start..] == [Request(first, true)];
        case Answered(a) =>
          if !a.success {
            alerts := alerts + [ErrorOr(a.error, fallback)];
            assert requests[start..] == [Request(first, true)];
          } else {
            Issue(UserLookup);
            assert requests[start..] == [Request(first, true), Request(UserLookup, true)];
            if lookup.None? {
              alerts := alerts + [prefix + "User record not found"];
            } else {
              SignIn(lookup.value, stringify);
              navigatedTo := Some("/home");
            }
          }
      }
      loading := false;
    }

    /** `handleLogin`: an accepted login with a user row saves the session and
        navigates home; a refused one keeps the step and does not navigate. */
    method HandleLogin(reply: Reply<Answer>, lookup: Option<UserRecord>, stringify: User -> string)
      modifies this, auth, auth.store
      ensures var o := SignInOutcome(LoginRequest, old(step), reply, lookup, "Invalid credentials", "Login failed: ");
        && step == old(step) && alerts == old(alerts) + o.alerts
        && navigatedTo == (if o.navigateTo.Some? then o.navigateTo else old(navigatedTo))
        && |requests| >= |old(requests)| && requests[..|old(requests)|] == old(requests)
        && Endpoints(requests[|old(requests)|..]) == o.requests
        && AllWhileLoading(requests[|old(requests)|..])
        && (if o.signedIn.Some?
            then auth.user == Some(User(o.signedIn.value.id, o.signedIn.value.email, None, None, None)) &&
                 auth.store.entries == Saved(old(auth.store.entries), auth.user, stringify)
            else auth.user == old(auth.user) && auth.store.entries == old(auth.store.entries))
      ensures email == old(email) && otp == old(otp) && password == old(password)
      ensures !loading
    {
      SignInFlow(LoginRequest, reply, lookup, "Invalid credentials", "Login failed: ", stringify);
    }

    /** `handleVerifyOtp`. */
    method HandleVerifyOtp(reply: Reply<Answer>)
      modifies this
      ensures var o := VerifyOtpOutcome(old(otp), old(step), reply);
        && step == o.step && alerts == old(alerts) + o.alerts && navigatedTo == old(navigatedTo)
        && |requests| >= |old(requests)| && requests[..|old(requests)|] == old(requests)
        && Endpoints(requests[|old(requests)|..]) == o.requests
        && AllWhileLoading(requests[|old(requests)|..])
      ensures email == old(email) && otp == old(otp) && password == old(password)
      ensures loading == (if |old(otp)| != 6 then old(loading) else false)
    {
      if |otp| != 6 {
        alerts := alerts + ["Enter valid 6-digit OTP"];
        assert requests[|old(requests)|..] == [];
        return;
      }
      loading := true;
      Issue(VerifyOtp);
      match reply {
        case Threw(m) =>
          alerts := alerts + ["Server error: " + m];
        case Answered(a) =>
          if a.success {
            alerts := alerts + [EmailVerifiedAlert];
            step := SetPasswordStep;
          } else {
            alerts := alerts + [ErrorOr(a.error, "Invalid OTP")];
          }
      }
      loading := false;
    }

    /** `handleSetPassword`: a refused password keeps the step and does not navigate. */
    method HandleSetPassword(reply: Reply<Answer>, lookup: Option<UserRecord>, stringify: User -> string)
      modifies this, auth, auth.store
      ensures var o := SignInOutcome(SetPassword, old(step), reply, lookup, "Registration failed", "Server error: ");
        && step == old(step) && alerts == old(alerts) + o.alerts
        && navigatedTo == (if o.navigateTo.Some? then o.navigateTo else old(navigatedTo))
        && |requests| >= |old(requests)| && requests[..|old(requests)|] == old(requests)
        && Endpoints(requests[|old(requests)|..]) == o.requests
        && AllWhileLoading(requests[|old(requests)|..])
        && (if o.signedIn.Some?
            then auth.user == Some(User(o.signedIn.value.id, o.signedIn.value.email, None, None, None)) &&
                 auth.store.entries == Saved(old(auth.store.entries), auth.user, stringify)
            else auth.user == old(auth.user) && auth.store.entries == old(auth.store.entries))
      ensures email == old(email) && otp == old(otp) && password == old(password)
      ensures !loading
    {
      SignInFlow(SetPassword, reply, lookup, "Registration failed", "Server error: ", stringify);
    }
  }
}

=== FILE: notifications.dfy ===
/** The client side of notifications: turning the URL-safe VAPID key into the
    bytes the push manager wants, the permission and subscription decisions,
    and the options every shown notification carries. The browser APIs
    (`atob`, the permission prompt, the push manager, the backend call) are
    inputs. */
module Notifications {
  import opened Wrappers
  import opened Text
  import opened Schema

  /* ---------- the VAPID key ---------- */

  newtype byte = x: int | 0 <= x < 256

  /** The number of `=` appended so that the length becomes a multiple of four. */
  function Padding(n: nat): (p: nat)
    ensures p <= 3 && (n + p) % 4 == 0
    ensures p == 0 <==> n % 4 == 0
  {
    (4 - n % 4) % 4
  }

  /** `s.replace(/from/g, to)` for single characters. */
  function ReplaceAll(s: string, from: char, to: char): (r: string)
    ensures |r| == |s|
    ensures forall i :: 0 <= i < |s| ==> r[i] == if s[i] == from then to else s[i]
  {
    if s == [] then [] else ReplaceAll(s[..|s| - 1], from, to) + [if s[|s| - 1] == from then to else s[|s| - 1]]
  }

  /** One character of the URL-safe alphabet in the standard one. */
  function ToStandard(c: char): char {
    if c == '-' then '+' else if c == '_' then '/' else c
  }

  /** One character of the standard alphabet in the URL-safe one. */
  function ToUrlSafe(c: char): char {
    if c == '+' then '-' else if c == '/' then '_' else c
  }

  /** The string handed to `atob`: the key padded with `=`, then `-` replaced
      by `+` and `_` by `/`. */
  function StandardKey(key: string): string {
    ReplaceAll(ReplaceAll(key + Repeat('=', Padding(|key|)), '-', '+'), '_', '/')
  }

  /** Both replacements together move each character to the standard alphabet. */
  lemma ReplacedToStandard(s: string)
    ensures var r := ReplaceAll(ReplaceAll(s, '-', '+'), '_', '/');
      |r| == |s| && forall i :: 0 <= i < |s| ==> r[i] == ToStandard(s[i])
  {
    var m := ReplaceAll(s, '-', '+');
    var r := ReplaceAll(m, '_', '/');
    forall i | 0 <= i < |s| ensures r[i] == ToStandard(s[i]) {
      assert m[i] == if s[i] == '-' then '+' else s[i];
    }
  }

  /** The padded key is a whole number of base64 quads; its first part is the key
      with each character moved to the standard alphabet and the rest is `=`. */
  lemma StandardKeyShape(key: string)
    ensures var k := StandardKey(key);
      && |k| % 4 == 0 && |k| - |key| <= 3
      && (forall i :: 0 <= i < |key| ==> k[i] == ToStandard(key[i]))
      && (forall i :: |key| <= i < |k| ==> k[i] == '=')
  {
    var pad := Repeat('=', Padding(|key|));
    var padded := key + pad;
    ReplacedToStandard(padded);
    var k := StandardKey(key);
    assert |k| == |key| + Padding(|key|);
    forall i | 0 <= i < |key| ensures k[i] == ToStandard(key[i]) {
      assert padded[i] == key[i];
    }
    forall i | |key| <= i < |k| ensures k[i] == '=' {
      assert padded[i] == pad[i - |key|];
    }
  }

  /** A key already in the URL-safe alphabet comes back unchanged when the
      standard characters are mapped back: the replacement loses nothing. */
  lemma StandardKeyRoundTrip(key: string)
    requires forall i :: 0 <= i < |key| ==> key[i] != '+' && key[i] != '/'
    ensures var k := StandardKey(key);
      forall i :: 0 <= i < |key| ==> ToUrlSafe(k[i]) == key[i]
  {
    StandardKeyShape(key);
  }

  /** A decoded character as a `Uint8Array` element: the code modulo 256. */
  function ByteOf(c: char): byte {
    ((c as int) % 256) as byte
  }

  /** The bytes of a decoded string, one per character. */
  function Bytes(raw: string): (b: seq<byte>)
    ensures |b| == |raw| && forall i :: 0 <= i < |raw| ==> b[i] == ByteOf(raw[i])
  {
    seq(|raw|, i requires 0 <= i < |raw| => ByteOf(raw[i]))
  }

  /** The decoded key, or `None` when `atob` throws on it. */
  function DecodedKey(key: string, atob: string -> Option<string>): Option<seq<byte>> {
    match atob(StandardKey(key))
    case None => None
    case Some(raw) => Some(Bytes(raw))
  }

  /** `urlBase64ToUint8Array`: an array as long as the decoded string, element
      `i` holding the code of its character `i`. */
  method UrlBase64ToBytes(key: string, atob: string -> Option<string>) returns (out: Option<array<byte>>)
    ensures out.None? <==> atob(StandardKey(key)).None?
    ensures out.Some? ==> fresh(out.value) && Some(out.value[..]) == DecodedKey(key, atob)
  {
    var padding := Repeat('=', Padding(|key|));
    var base64 := ReplaceAll(ReplaceAll(key + padding, '-', '+'), '_', '/');
    var decoded := atob(base64);
    if decoded.None? {
      return None;
    }
    var raw := decoded.value;
    var a := new byte[|raw|];
    for i := 0 to |raw|
      invariant forall j :: 0 <= j < i ==> a[j] == ByteOf(raw[j])
    {
      a[i] := ByteOf(raw[i]);
    }
    assert a[..] == Bytes(raw);
    return Some(a);
  }

  /* ---------- permission and subscription ---------- */

  /** `Notification.permission`. */
  datatype Permission = Granted | Denied | Default

  /** What `requestNotificationPermission` resolves to, whether it prompted the
      user, and whether it went on to subscribe to push. */
  datatype PermissionResult = PermissionResult(granted: bool, prompted: bool, subscribes: bool)

  /** `requestNotificationPermission`: `answer` is what the prompt would return
      and `vapidKey` the configured public key. */
  function RequestPermission(supported: bool, current: Permission, answer: Permission, vapidKey: Option<string>): (r: PermissionResult)
    ensures r.prompted <==> supported && current == Default
    ensures r.granted <==> supported && (current == Granted || (current == Default && answer == Granted))
    ensures r.subscribes <==> r.prompted && answer == Granted && Truthy(vapidKey)
  {
    if !supported then PermissionResult(false, false, false)
    else if current == Granted then PermissionResult(true, false, false)
    else if current != Denied then PermissionResult(answer == Granted, true, answer == Granted && Truthy(vapidKey))
    else PermissionResult(false, false, false)
  }

  /** The calls `subscribeToPushNotifications` makes on the push manager and the backend. */
  datatype SubscribeEffect = PushSubscribe(key: seq<byte>) | SaveSubscription(subscription: nat)

  datatype SubscribeResult = SubscribeResult(subscription: Option<nat>, effects: seq<SubscribeEffect>)

  /** `subscribeToPushNotifications`: `existing` is the current subscription,
      `key` the decoded VAPID key (`None` when decoding throws) and `created`
      what subscribing yields (`None` when it is refused). Saving swallows its
      own errors, so it never changes the result. */
  function SubscribeToPush(supported: bool, existing: Option<nat>, key: Option<seq<byte>>, created: Option<nat>): (r: SubscribeResult)
    ensures supported && existing.Some? ==> r == SubscribeResult(existing, [])
    ensures r.effects != [] <==> supported && existing.None? && key.Some?
    ensures r.effects != [] ==> r.effects[0] == PushSubscribe(key.value)
    ensures |r.effects| <= 2 && (|r.effects| == 2 <==> r.effects != [] && created.Some?)
    ensures |r.effects| == 2 ==> r.effects[1] == SaveSubscription(created.value) && r.subscription == created
    ensures r.subscription.Some? <==> supported && (existing.Some? || (key.Some? && created.Some?))
  {
    if !supported then SubscribeResult(None, [])
    else if existing.Some? then SubscribeResult(existing, [])
    else if key.None? then SubscribeResult(None, [])
    else if created.None? then SubscribeResult(None, [PushSubscribe(key.value)])
    else SubscribeResult(created, [PushSubscribe(key.value), SaveSubscription(created.value)])
  }

  /** `unsubscribeFromPush`: true exactly when there was a subscription and
      unsubscribing it did not fail. */
  function Unsubscribe(supported: bool, existing: Option<nat>, unsubscribeSucceeds: bool): (r: bool)
    ensures r <==> supported && existing.Some? && unsubscribeSucceeds
  {
    if !supported then false
    else if existing.None? then false
    else unsubscribeSucceeds
  }

  /* ---------- showing a notification ---------- */

  const DefaultIcon: string := "/icon-192x192.png"
  const DefaultBadge: string := "/badge-72x72.png"
  const DefaultTag: string := "default"
  const SendNotificationType: string := "SEND_NOTIFICATION"

  /** The `data` of a notification; an absent value is `undefined`. */
  type Data = map<string, Option<string>>

  /** The argument of `sendNotification`. */
  datatype NotificationOptions = NotificationOptions(
    title: string, body: string, icon: Option<string>, badge: Option<string>,
    tag: Option<string>, data: Option<Data>)

  /** The options a notification is actually shown with. */
  datatype ShownOptions = ShownOptions(body: string, icon: string, badge: string, tag: string, data: Data)

  /** Each missing or empty option replaced by its default. */
  function WithDefaults(o: NotificationOptions): (s: ShownOptions)
    ensures s.body == o.body
    ensures s.icon == (if Truthy(o.icon) then o.icon.value else DefaultIcon) && s.icon != ""
    ensures s.badge == (if Truthy(o.badge) then o.badge.value else DefaultBadge) && s.badge != ""
    ensures s.tag == (if Truthy(o.tag) then o.tag.value else DefaultTag) && s.tag != ""
    ensures s.data == (if o.data.Some? then o.data.value else map[])
  {
    ShownOptions(o.body, Or(o.icon, DefaultIcon), Or(o.badge, DefaultBadge), Or(o.tag, DefaultTag),
                 if o.data.Some? then o.data.value else map[])
  }

  /** The message posted to the controlling service worker. */
  datatype WorkerMessage = WorkerMessage(kind: string, title: string, options: ShownOptions)

  /** Where `sendNotification` delivers: nowhere, to the service worker, or as
      a page notification. */
  datatype Delivery = NotDelivered | ToWorker(message: WorkerMessage) | Direct(title: string, options: ShownOptions)

  /** `sendNotification`. Without permission it asks first (with the same
      `answer` and `vapidKey` as `RequestPermission`) and gives up unless
      granted; with a controlling worker it posts to it, otherwise it shows the
      notification itself. */
  function SendNotification(supported: bool, permission: Permission, answer: Permission, vapidKey: Option<string>,
                            hasController: bool, o: NotificationOptions): (d: Delivery)
    ensures d.NotDelivered? <==> !supported || permission == Denied || (permission == Default && answer != Granted)
    ensures d.ToWorker? <==> !d.NotDelivered? && hasController
    ensures d.ToWorker? ==> d.message == WorkerMessage(SendNotificationType, o.title, WithDefaults(o))
    ensures d.Direct? ==> d.title == o.title && d.options == WithDefaults(o)
  {
    if !supported then NotDelivered
    else if permission != Granted && !RequestPermission(supported, permission, answer, vapidKey).granted then NotDelivered
    else if hasController then ToWorker(WorkerMessage(SendNotificationType, o.title, WithDefaults(o)))
    else Direct(o.title, WithDefaults(o))
  }

  /** The options `notifyNewMessage` passes on. */
  function NotifyNewMessage(senderName: string, preview: string, avatar: Option<string>, threadId: Option<string>): NotificationOptions {
    NotificationOptions(senderName, if preview != "" then preview else "Sent a message", avatar, None,
                        Some("dm-" + senderName), Some(map["threadId" := threadId, "type" := Some("message")]))
  }

  /** A new-message notification is titled with the sender, never has an empty
      body, is tagged per sender so a newer one replaces an older one, carries
      the thread, and gets the default badge and, without an avatar, the
      default icon. */
  lemma NewMessageShown(senderName: string, preview: string, avatar: Option<string>, threadId: Option<string>)
    ensures var o := NotifyNewMessage(senderName, preview, avatar, threadId);
      var s := WithDefaults(o);
      && o.title == senderName
      && s.body != "" && (preview != "" ==> s.body == preview)
      && s.tag == "dm-" + senderName
      && s.badge == DefaultBadge
      && s.icon == (if Truthy(avatar) then avatar.value else DefaultIcon)
      && "threadId" in s.data && s.data["threadId"] == threadId
      && "type" in s.data && s.data["type"] == Some("message")
  {
    var o := NotifyNewMessage(senderName, preview, avatar, threadId);
    assert Truthy(o.tag);
  }
}

=== FILE: push_function.dfy ===
/** The edge function run on every new message row: it validates the webhook
    body, looks up the sender and the receiver's push subscriptions, and asks
    the push backend to notify the receiver. The request body, both lookups and
    the backend reply are inputs. */
module PushFunction {
  import opened Wrappers
  import opened Text
  import opened Schema

  const NoSubscriptionsMessage: string := "No active subscriptions for receiver"
  const TriggeredMessage: string := "Push notification triggered"
  const PreviewLength: nat := 100

  /** The inserted message row; each column may be missing. */
  datatype Record = Record(senderId: Option<UserId>, receiverId: Option<UserId>,
                           content: Option<string>, threadId: Option<string>)

  /** A record naming both parties. */
  predicate NamesBoth(r: Record) {
    Truthy(r.receiverId) && Truthy(r.senderId)
  }

  /** The sender's `name, profile_image`, when the lookup finds the row. */
  datatype Sender = Sender(name: Option<string>, profileImage: Option<string>)

  /** The body sent to the backend's push endpoint. */
  datatype PushRequest = PushRequest(userId: UserId, title: string, body: string,
                                     icon: Option<string>, threadId: Option<string>)

  datatype ResponseBody =
    | ErrorBody(error: string)
    | SuccessBody(message: string, result: Option<string>)

  datatype Response = Response(status: int, body: ResponseBody)

  /** The response, and the push request if the backend was called. */
  datatype Handled = Handled(response: Response, push: Option<PushRequest>)

  /** The title of the push: "Message from " and the sender's name, or
      "Someone" when the name is unknown. */
  function PushTitle(sender: Option<Sender>): string {
    "Message from " + (if sender.Some? then Or(sender.value.name, "Someone") else "Someone")
  }

  /** The body of the push: the first hundred characters of the content, or
      "Sent a message" when there is none. */
  function PushBody(content: Option<string>): (b: string)
    ensures b != "" && |b| <= PreviewLength
    ensures Truthy(content) ==> b == Take(content.value, PreviewLength) && b <= content.value
    ensures !Truthy(content) ==> b == "Sent a message"
  {
    if content.Some? && Take(content.value, PreviewLength) != [] then Take(content.value, PreviewLength)
    else "Sent a message"
  }

  /** The handler. `body` is the `record` of the parsed request (`Threw` when
      the request is not a JSON object); `subscriptions` counts the receiver's
      subscriptions (`None` when the query fails); `backend` is the backend's
      parsed reply (`Threw` when the call or its parsing fails). */
  function Handle(body: Reply<Option<Record>>, sender: Option<Sender>, subscriptions: Option<nat>,
                  backend: Reply<string>): (h: Handled)
    ensures body.Threw? ==> h == Handled(Response(500, ErrorBody(body.message)), None)
    ensures body.Answered? && body.answer.None? ==> h.response.status == 400 && h.push.None?
    ensures body.Answered? && body.answer.Some? && !NamesBoth(body.answer.value) ==>
      h.response.status == 400 && h.push.None?
    ensures h.push.Some? <==>
      body.Answered? && body.answer.Some? && NamesBoth(body.answer.value) && subscriptions.Some? && subscriptions.value > 0
    ensures h.push.None? && h.response.status == 200 ==> h.response.body == SuccessBody(NoSubscriptionsMessage, None)
    ensures h.push.Some? ==> h.response.status == (if backend.Threw? then 500 else 200)
    ensures h.push.Some? ==>
      var r := body.answer.value;
      h.push.value == PushRequest(r.receiverId.value, PushTitle(sender), PushBody(r.content),
                                  if sender.Some? then sender.value.profileImage else None, r.threadId)
  {
    match body
    case Threw(message) => Handled(Response(500, ErrorBody(message)), None)
    case Answered(None) => Handled(Response(400, ErrorBody("No record provided")), None)
    case Answered(Some(r)) =>
      if !Truthy(r.receiverId) || !Truthy(r.senderId) then
        Handled(Response(400, ErrorBody("Missing receiver_id or sender_id")), None)
      else if subscriptions.None? || subscriptions.value == 0 then
        Handled(Response(200, SuccessBody(NoSubscriptionsMessage, None)), None)
      else
        var push := PushRequest(r.receiverId.value, PushTitle(sender), PushBody(r.content),
                                if sender.Some? then sender.value.profileImage else None, r.threadId);
        match backend
        case Threw(message) => Handled(Response(500, ErrorBody(message)), Some(push))
        case Answered(result) => Handled(Response(200, SuccessBody(TriggeredMessage, Some(result))), Some(push))
  }

  /** Every response is 200, 400 or 500; 400 comes only from validation,
      before any lookup result matters; and a valid request whose receiver
      has subscriptions always reaches the backend, with a 500 exactly when
      the backend fails. */
  lemma StatusSelection(body: Reply<Option<Record>>, sender: Option<Sender>, subscriptions: Option<nat>,
                        backend: Reply<string>)
    ensures var h := Handle(body, sender, subscriptions, backend);
      && (h.response.status == 200 || h.response.status == 400 || h.response.status == 500)
      && (h.response.status == 400 <==>
            body.Answered? && (body.answer.None? || !NamesBoth(body.answer.value)))
      && (h.response.status == 400 ==>
            forall s, n, b :: Handle(body, s, n, b) == h)
  {
  }
}

=== FILE: qr_connection_flow.dfy ===
/** The QR connection flow: parsing a scanned payload, the step machine that
    either connects a signed-in user at once or registers a new one first,
    and the reset on retry. Server replies are inputs. */
module QRConnectionFlow {
  import opened Wrappers
  import opened Text
  import opened Schema

  /** A parsed payload: the connection code and, optionally, the inviter's id. */
  datatype QRData = QRData(code: string, inviterUserId: Option<string>)

  /** The key of one `|`-separated part: the trimmed text before its first colon. */
  function KeyOf(part: string): string {
    Trim(SplitOn(part, ':')[0])
  }

  /** The value of one part: the trimmed text between its first and second
      colon, or none (`undefined`) when the part has no colon. */
  function ValueOf(part: string): Option<string> {
    var pieces := SplitOn(part, ':');
    if |pieces| >= 2 then Some(Trim(pieces[1])) else None
  }

  /** The `reduce` over the parts: one entry per key, left to right. */
  function Fields(parts: seq<string>): map<string, Option<string>> {
    if parts == [] then map[]
    else Fields(parts[..|parts| - 1])[KeyOf(parts[|parts| - 1]) := ValueOf(parts[|parts| - 1])]
  }

  /** A later part with the same key overwrites an earlier one: a key maps to
      the value of the last part that carries it. */
  lemma {:induction false} FieldsLastWins(parts: seq<string>, i: nat)
    requires i < |parts|
    requires forall j :: i < j < |parts| ==> KeyOf(parts[j]) != KeyOf(parts[i])
    ensures KeyOf(parts[i]) in Fields(parts) && Fields(parts)[KeyOf(parts[i])] == ValueOf(parts[i])
    decreases |parts|
  {
    if i < |parts| - 1 {
      var init := parts[..|parts| - 1];
      assert init[i] == parts[i];
      forall j | i < j < |init| ensures KeyOf(init[j]) != KeyOf(init[i]) {
        assert init[j] == parts[j];
      }
      FieldsLastWins(init, i);
    }
  }

  /** Part `i` carries key `k` and no later part does. */
  predicate LastCarrier(parts: seq<string>, i: int, k: string) {
    0 <= i < |parts| && KeyOf(parts[i]) == k && forall j :: i < j < |parts| ==> KeyOf(parts[j]) != k
  }

  /** Conversely, every key of the field map comes from a part: the last part
      carrying that key, whose value it holds. */
  lemma {:induction false} FieldsFromLastPart(parts: seq<string>, k: string)
    requires k in Fields(parts)
    ensures exists i :: LastCarrier(parts, i, k) && Fields(parts)[k] == ValueOf(parts[i])
    decreases |parts|
  {
    assert parts != [];
    var n := |parts| - 1;
    var init := parts[..n];
    assert Fields(parts) == Fields(init)[KeyOf(parts[n]) := ValueOf(parts[n])];
    if KeyOf(parts[n]) == k {
      assert LastCarrier(parts, n, k);
    } else {
      FieldsFromLastPart(init, k);
      var i :| LastCarrier(init, i, k) && Fields(init)[k] == ValueOf(init[i]);
      assert parts[i] == init[i];
      forall j | i < j < |parts| ensures KeyOf(parts[j]) != k {
        if j < n {
          assert parts[j] == init[j];
        }
      }
      assert LastCarrier(parts, i, k);
    }
  }

  /** The final check of `parseQRCode` on the collected fields: no result
      exactly when the `code` key is absent, has no value or an empty one;
      otherwise the code and the `inviter` value, if any. */
  function FromFields(fields: map<string, Option<string>>): (r: Option<QRData>)
    ensures r.None? <==> "code" !in fields || !Truthy(fields["code"])
    ensures r.Some? ==> Some(r.value.code) == fields["code"] && r.value.code != ""
    ensures r.Some? ==> r.value.inviterUserId == if "inviter" in fields then fields["inviter"] else None
  {
    if "code" !in fields || !Truthy(fields["code"]) then None
    else Some(QRData(fields["code"].value, if "inviter" in fields then fields["inviter"] else None))
  }

  /** `parseQRCode`: split on `|`, collect the fields, check the code. */
  function ParseQRCode(data: string): Option<QRData> {
    FromFields(Fields(SplitOn(data, '|')))
  }

  /** Only the text between the first and the second colon becomes the value;
      key and value are trimmed. */
  lemma PartValueStopsAtSecondColon(k: string, v: string, w: string)
    requires ':' !in k && ':' !in v
    ensures KeyOf(k + ":" + v + ":" + w) == Trim(k)
    ensures ValueOf(k + ":" + v + ":" + w) == Some(Trim(v))
  {
    assert k + ":" + v + ":" + w == k + [':'] + (v + [':'] + w);
    SplitAtFirstSep(k, ':', v + [':'] + w);
    SplitAtFirstSep(v, ':', w);
  }

  /** The key and value of a part with a single colon. */
  lemma PartWithOneColon(k: string, v: string)
    requires ':' !in k && ':' !in v
    ensures KeyOf(k + ":" + v) == Trim(k) && ValueOf(k + ":" + v) == Some(Trim(v))
  {
    assert k + ":" + v == k + [':'] + v;
    SplitAtFirstSep(k, ':', v);
    SplitWithoutSep(v, ':');
  }

  /** A `code:` part: key `code`, value the trimmed rest. */
  lemma CodePart(x: string)
    requires ':' !in x
    ensures KeyOf("code:" + x) == "code" && ValueOf("code:" + x) == Some(Trim(x))
  {
    assert "code:" + x == "code" + ":" + x;
    PartWithOneColon("code", x);
    TrimNoEdgeSpace("code");
  }

  /** An `inviter:` part: key `inviter`, value the trimmed rest. */
  lemma InviterPart(u: string)
    requires ':' !in u
    ensures KeyOf("inviter:" + u) == "inviter" && ValueOf("inviter:" + u) == Some(Trim(u))
  {
    assert "inviter:" + u == "inviter" + ":" + u;
    PartWithOneColon("inviter", u);
    TrimNoEdgeSpace("inviter");
  }

  /** `"code:X"` parses to code `X` (trimmed) without an inviter. */
  lemma ParseCodeOnly(x: string)
    requires '|' !in x && ':' !in x && Trim(x) != ""
    ensures ParseQRCode("code:" + x) == Some(QRData(Trim(x), None))
  {
    var p := "code:" + x;
    CodePart(x);
    assert '|' !in p;
    SplitWithoutSep(p, '|');
    assert [p][..0] == [];
    assert Fields([p]) == map["code" := Some(Trim(x))];
  }

  /** The fields of two parts: the second part's entry is written over the first's. */
  lemma FieldsOfTwo(p1: string, p2: string)
    ensures Fields([p1, p2]) == map[KeyOf(p1) := ValueOf(p1)][KeyOf(p2) := ValueOf(p2)]
  {
    assert [p1, p2][..1] == [p1];
    assert [p1][..0] == [];
    assert Fields([p1]) == map[KeyOf(p1) := ValueOf(p1)];
  }

  /** Two parts carrying a non-empty code and an inviter parse to both. */
  lemma ParseCodeAndInviterParts(p1: string, p2: string, c: string, v: string)
    requires '|' !in p1 && '|' !in p2 && c != ""
    requires KeyOf(p1) == "code" && ValueOf(p1) == Some(c)
    requires KeyOf(p2) == "inviter" && ValueOf(p2) == Some(v)
    ensures ParseQRCode(p1 + "|" + p2) == Some(QRData(c, Some(v)))
  {
    assert p1 + "|" + p2 == p1 + ['|'] + p2;
    SplitAtFirstSep(p1, '|', p2);
    SplitWithoutSep(p2, '|');
    assert SplitOn(p1 + "|" + p2, '|') == [p1, p2];
    FieldsOfTwo(p1, p2);
    var fields := map["code" := Some(c)]["inviter" := Some(v)];
    assert Fields([p1, p2]) == fields;
    assert FromFields(fields) == Some(QRData(c, Some(v)));
  }

  /** `"code:X|inviter:U"` parses to code `X` with inviter `U` (both trimmed). */
  lemma ParseCodeWithInviter(x: string, u: string)
    requires '|' !in x && ':' !in x && '|' !in u && ':' !in u && Trim(x) != ""
    ensures ParseQRCode(("code:" + x) + "|" + ("inviter:" + u)) == Some(QRData(Trim(x), Some(Trim(u))))
  {
    var p1, p2 := "code:" + x, "inviter:" + u;
    CodePart(x);
    InviterPart(u);
    assert '|' !in p1 && '|' !in p2;
    ParseCodeAndInviterParts(p1, p2, Trim(x), Trim(u));
  }

  /** The steps of the flow (`"error"` in the source is `Failed` here). */
  datatype Step = QrScan | Register | Connecting | Success | Failed

  /** The backend endpoints the flow calls. */
  datatype Endpoint = CheckEmail | RegisterUser | Login | Me | VerifyConnectionCode

  /** The reply of `verify-connection-code`: HTTP success, its message and the other user's id. */
  datatype VerifyAnswer = VerifyAnswer(ok: bool, message: string, connectedUserId: UserId)

  /** The replies the registration chain receives, in call order. */
  datatype RegisterReplies = RegisterReplies(
    emailExists: Reply<bool>,
    register: Reply<Option<string>>,    // None: success; Some(e): failure with error text e
    loginSuccess: Reply<bool>,
    me: Reply<Option<UserId>>,          // None: the request failed; Some(id): the user it returned
    verify: Reply<VerifyAnswer>)

  /** What one handler run does: the requests it issues in order, the step it
      ends in, the error text it sets (if any), the user it signs in and the
      peer it hands to the chat provider's `createOrGetThread`. */
  datatype Run = Run(requests: seq<Endpoint>, step: Step, error: Option<string>,
                     signedInAs: Option<UserId>, threadWith: Option<UserId>)

  /** `err.message || fallback` of a catch. */
  function Caught(message: string, fallback: string): string {
    if message != "" then message else fallback
  }

  /** `verifyAndConnect` from the moment it starts: one request; success hands
      the returned user to `createOrGetThread`, anything else ends in `Failed`
      with a message. */
  function VerifyAndConnect(verify: Reply<VerifyAnswer>): (run: Run)
    ensures run.requests == [VerifyConnectionCode] && run.signedInAs == None
    ensures run.step == Success || run.step == Failed
    ensures run.step == Success <==> verify.Answered? && verify.answer.ok
    ensures run.step == Success ==> run.threadWith == Some(verify.answer.connectedUserId) && run.error == None
    ensures run.step == Failed ==> run.threadWith == None && run.error.Some? && run.error.value != ""
  {
    match verify
    case Threw(m) => Run([VerifyConnectionCode], Failed, Some(Caught(m, "Connection failed")), None, None)
    case Answered(a) =>
      if !a.ok then Run([VerifyConnectionCode], Failed, Some(Caught(a.message, "Invalid code")), None, None)
      else Run([VerifyConnectionCode], Success, None, None, Some(a.connectedUserId))
  }

  /** The request chain of `handleAutoRegister` after its form checks passed. */
  function RegisterChain(r: RegisterReplies): (run: Run)
    ensures run.step == Success || run.step == Failed
    ensures run.step == Failed ==> run.error.Some? && run.error.value != "" && run.threadWith == None
    ensures run.signedInAs.Some? <==> r.emailExists == Answered(false) && r.register == Answered(None) &&
                                      r.loginSuccess == Answered(true) && r.me.Answered? && r.me.answer.Some?
    ensures run.step == Success <==> run.signedInAs.Some? && r.verify.Answered? && r.verify.answer.ok
  {
    var fail := (reqs: seq<Endpoint>, m: string) => Run(reqs, Failed, Some(Caught(m, "Registration failed")), None, None);
    match r.emailExists
    case Threw(m) => fail([CheckEmail], m)
    case Answered(exists_) =>
      if exists_ then Run([CheckEmail], Failed, Some("Email already registered. Please log in instead."), None, None)
      else match r.register
      case Threw(m) => fail([CheckEmail, RegisterUser], m)
      case Answered(regError) =>
        if regError.Some? then fail([CheckEmail, RegisterUser], Caught(regError.value, "Registration failed"))
        else match r.loginSuccess
        case Threw(m) => fail([CheckEmail, RegisterUser, Login], m)
        case Answered(success) =>
          if !success then fail([CheckEmail, RegisterUser, Login], "Auto-login failed")
          else match r.me
          case Threw(m) => fail([CheckEmail, RegisterUser, Login, Me], m)
          case Answered(me) =>
            if me.None? then fail([CheckEmail, RegisterUser, Login, Me], "Failed to fetch user data")
            else
              var v := VerifyAndConnect(r.verify);
              Run([CheckEmail, RegisterUser, Login, Me] + v.requests, v.step, v.error, me, v.threadWith)
  }

  /** The registration requests are always issued in the same order, and each
      one only after every earlier one succeeded. */
  lemma RegisterRequestsInOrder(r: RegisterReplies)
    ensures var reqs := RegisterChain(r).requests;
      && 1 <= |reqs| <= 5
      && reqs <= [CheckEmail, RegisterUser, Login, Me, VerifyConnectionCode]
      && (|reqs| >= 2 <==> r.emailExists == Answered(false))
      && (|reqs| == 5 <==> RegisterChain(r).signedInAs.Some?)
  {
  }

  /** The registration form is complete: every field filled and a payload parsed. */
  predicate FormComplete(email: string, name: string, password: string, qrData: Option<QRData>) {
    email != "" && name != "" && password != "" && qrData.Some?
  }

  /** The flow's state. */
  class QRConnectionFlow {
    var step: Step
    var showScanner: bool
    var qrData: Option<QRData>
    var error: string
    var loading: bool
    var email: string
    var name: string
    var password: string
    /** The requests issued so far, in order. */
    var requests: seq<Endpoint>
    /** The users handed to `createOrGetThread`, in order. */
    var threadRequests: seq<UserId>
    /** The user handed to the auth provider's `setUser`, if any. */
    var signedInAs: Option<UserId>

    constructor ()
      ensures step == QrScan && showScanner && qrData == None && error == "" && !loading
      ensures email == "" && name == "" && password == ""
      ensures requests == [] && threadRequests == [] && signedInAs == None
    {
      step, showScanner, qrData, error, loading := QrScan, true, None, "", false;
      email, name, password := "", "", "";
      requests, threadRequests, signedInAs := [], [], None;
    }

    /** Apply a run: the error is left as it was when the run sets none. */
    method Apply(run: Run)
      modifies this
      ensures step == run.step && !loading
      ensures error == if run.error.Some? then run.error.value else old(error)
      ensures requests == old(requests) + run.requests
      ensures threadRequests == old(threadRequests) + (if run.threadWith.Some? then [run.threadWith.value] else [])
      ensures signedInAs == if run.signedInAs.Some? then run.signedInAs else old(signedInAs)
      ensures showScanner == old(showScanner) && qrData == old(qrData)
      ensures email == old(email) && name == old(name) && password == old(password)
    {
      step := run.step;
      loading := false;
      if run.error.Some? {
        error := run.error.value;
      }
      requests := requests + run.requests;
      if run.threadWith.Some? {
        threadRequests := threadRequests + [run.threadWith.value];
      }
      if run.signedInAs.Some? {
        signedInAs := run.signedInAs;
      }
    }

    /** `handleQRScan`: the scanner closes; an unparseable payload fails with
        "Invalid QR code format"; a parsed one is kept and goes straight to
        verification for a signed-in user, or to the registration form. */
    method HandleQRScan(scanned: string, currentUser: Option<UserId>, verify: Reply<VerifyAnswer>)
      modifies this
      ensures !showScanner
      ensures email == old(email) && name == old(name) && password == old(password)
      ensures ParseQRCode(scanned).None? ==>
        step == Failed && error == "Invalid QR code format" && qrData == old(qrData) && loading == old(loading) &&
        requests == old(requests) && threadRequests == old(threadRequests) && signedInAs == old(signedInAs)
      ensures ParseQRCode(scanned).Some? ==> qrData == ParseQRCode(scanned)
      ensures ParseQRCode(scanned).Some? && !Truthy(currentUser) ==>
        step == Register && error == old(error) && requests == old(requests) &&
        threadRequests == old(threadRequests) && loading == old(loading) && signedInAs == old(signedInAs)
      ensures ParseQRCode(scanned).Some? && Truthy(currentUser) ==>
        var run := VerifyAndConnect(verify);
        step == run.step && !loading && requests == old(requests) + [VerifyConnectionCode] &&
        signedInAs == old(signedInAs) &&
        error == (if run.error.Some? then run.error.value else old(error)) &&
        threadRequests == old(threadRequests) + (if run.threadWith.Some? then [run.threadWith.value] else [])
    {
      showScanner := false;
      var parsed := ParseQRCode(scanned);
      if parsed.None? {
        step := Failed;
        error := "Invalid QR code format";
        return;
      }
      qrData := parsed;
      if Truthy(currentUser) {
        var run := VerifyAndConnect(verify);
        Apply(run);
      } else {
        step := Register;
      }
    }

    /** `handleAutoRegister`: an incomplete form or a password shorter than 8
        characters is refused with a message and no request; otherwise the
        error is cleared and the request chain runs. */
    method HandleAutoRegister(replies: RegisterReplies)
      modifies this
      ensures qrData == old(qrData) && showScanner == old(showScanner)
      ensures email == old(email) && name == old(name) && password == old(password)
      ensures !FormComplete(email, name, password, qrData) ==>
        error == "Please fill in all fields" && step == old(step) && loading == old(loading) &&
        requests == old(requests) && threadRequests == old(threadRequests) && signedInAs == old(signedInAs)
      ensures FormComplete(email, name, password, qrData) && |password| < 8 ==>
        error == "Password must be at least 8 characters" && step == old(step) && loading == old(loading) &&
        requests == old(requests) && threadRequests == old(threadRequests) && signedInAs == old(signedInAs)
      ensures FormComplete(email, name, password, qrData) && |password| >= 8 ==>
        var run := RegisterChain(replies);
        step == run.step && !loading && requests == old(requests) + run.requests &&
        error == (if run.error.Some? then run.error.value else "") &&
        threadRequests == old(threadRequests) + (if run.threadWith.Some? then [run.threadWith.value] else []) &&
        signedInAs == (if run.signedInAs.Some? then run.signedInAs else old(signedInAs))
    {
      if !FormComplete(email, name, password, qrData) {
        error := "Please fill in all fields";
        return;
      }
      if |password| < 8 {
        error := "Password must be at least 8 characters";
        return;
      }
      loading := true;
      error := "";
      Apply(RegisterChain(replies));
    }

    /** `handleRetry`: back to the scanner with the payload, error and form cleared. */
    method HandleRetry()
      modifies this
      ensures step == QrScan && showScanner && qrData == None && error == ""
      ensures email == "" && name == "" && password == ""
      ensures loading == old(loading) && requests == old(requests)
      ensures threadRequests == old(threadRequests) && signedInAs == old(signedInAs)
    {
      step := QrScan;
      showScanner := true;
      qrData := None;
      error := "";
      email, name, password := "", "", "";
    }
  }
}

=== FILE: schema.dfy ===
/** The rows of the hosted database tables the client reads and writes
    (`dm_threads`, `dm_messages`, `connection_code`, `users`), the two lookups it
    performs on them, and the tables themselves as one mutable object. */
module Schema {
  import opened Wrappers

  type UserId = string

  /** JavaScript truthiness of an optional string: present and not empty. */
  predicate Truthy(s: Option<string>) {
    s.Some? && s.value != ""
  }

  /** `s || fallback` for an optional string. */
  function Or(s: Option<string>, fallback: string): string {
    if Truthy(s) then s.value else fallback
  }

  /** A row of `dm_threads`: a two-party conversation. */
  datatype Thread = Thread(id: string, user1: UserId, user2: UserId, createdAt: string)

  /** A row of `dm_messages` as the server returns it. */
  datatype Message = Message(
    id: int, threadId: string, senderId: UserId, receiverId: UserId,
    content: string, isRead: bool, createdAt: string)

  /** The columns the client supplies when it inserts into `dm_messages`. */
  datatype NewMessage = NewMessage(threadId: string, senderId: UserId, receiverId: UserId, content: string)

  /** A row of `connection_code`; `expiresAt` is the expiry instant as a number. */
  datatype CodeRow = CodeRow(
    id: int, code: string, ownerUserId: Option<UserId>, verified: bool,
    expiresAt: int, connectedUserId: Option<UserId>)

  /** The `id, name, profile_image` columns of `users`. */
  datatype UserRow = UserRow(id: UserId, name: Option<string>, profileImage: Option<string>)

  /** The thread is between `a` and `b`, in either ordering. */
  predicate Joins(t: Thread, a: UserId, b: UserId) {
    (t.user1 == a && t.user2 == b) || (t.user1 == b && t.user2 == a)
  }

  /** The rows of `threads` that are between `a` and `b`, in table order: the
      `or(...)` filter of the pair lookup, read as its two orderings. */
  function ThreadsOfPair(threads: seq<Thread>, a: UserId, b: UserId): (r: seq<Thread>)
    ensures forall t :: t in r <==> t in threads && Joins(t, a, b)
    ensures |r| <= |threads|
  {
    if threads == [] then []
    else
      var last := threads[|threads| - 1];
      ThreadsOfPair(threads[..|threads| - 1], a, b) + (if Joins(last, a, b) then [last] else [])
  }

  /** `maybeSingle()`: the row when exactly one matched; no row at all, or more
      than one (which the client library reports as an error), gives no data. */
  function MaybeSingle<T>(rows: seq<T>): Option<T> {
    if |rows| == 1 then Some(rows[0]) else None
  }

  /** The pair lookup that precedes every thread creation. */
  function FindPairThread(threads: seq<Thread>, a: UserId, b: UserId): Option<Thread> {
    MaybeSingle(ThreadsOfPair(threads, a, b))
  }

  /** The lookup does not depend on the order in which the pair is named. */
  lemma {:induction false} ThreadsOfPairSymmetric(threads: seq<Thread>, a: UserId, b: UserId)
    ensures ThreadsOfPair(threads, a, b) == ThreadsOfPair(threads, b, a)
    decreases |threads|
  {
    if threads != [] {
      ThreadsOfPairSymmetric(threads[..|threads| - 1], a, b);
    }
  }

  /** A found thread is a row of the table between the two users, whichever
      of them is named first. */
  lemma FindPairThreadSound(threads: seq<Thread>, a: UserId, b: UserId)
    ensures FindPairThread(threads, a, b) == FindPairThread(threads, b, a)
    ensures FindPairThread(threads, a, b).Some? ==>
      var t := FindPairThread(threads, a, b).value; t in threads && Joins(t, a, b)
  {
    ThreadsOfPairSymmetric(threads, a, b);
    var rows := ThreadsOfPair(threads, a, b);
    if |rows| == 1 { assert rows[0] in rows; }
  }

  /** Once a thread for a pair that had none is inserted, the pair lookup finds
      exactly that thread, in either ordering: a second connection attempt for
      the same pair reuses it instead of creating another. */
  lemma InsertedThreadIsFound(threads: seq<Thread>, t: Thread, a: UserId, b: UserId)
    requires ThreadsOfPair(threads, a, b) == []
    requires Joins(t, a, b)
    ensures FindPairThread(threads + [t], a, b) == Some(t)
    ensures FindPairThread(threads + [t], b, a) == Some(t)
  {
    var ts := threads + [t];
    assert ts[..|ts| - 1] == threads;
    ThreadsOfPairSymmetric(ts, a, b);
  }

  /** The remote tables the client reaches through the hosted database API. */
  class Database {
    var threads: seq<Thread>
    var messages: seq<NewMessage>
    var codes: seq<CodeRow>

    constructor (threads: seq<Thread>, messages: seq<NewMessage>, codes: seq<CodeRow>)
      ensures this.threads == threads && this.messages == messages && this.codes == codes
    {
      this.threads := threads;
      this.messages := messages;
      this.codes := codes;
    }
  }
}

=== FILE: service_worker.dfy ===
/** The service worker: its cache (filled on install, pruned on activate,
    consulted and filled on fetch), the notifications it shows for pushes and
    page messages, and the window a notification click leads to. The network,
    the cache storage and the window clients are inputs and fields. */
module ServiceWorker {
  import opened Wrappers
  import opened Schema
  import opened Notifications

  const CacheName: string := "networx-v1"
  const Assets: seq<string> := ["/", "/index.html"]
  const OfflinePage: string := "/index.html"
  const DefaultTitle: string := "NetworX"
  const DefaultPushBody: string := "You have a new message"

  datatype Request = Request(verb: string, url: string)

  /** A response: its status, its `type` and its body. */
  datatype Response = Response(status: int, kind: string, body: string)

  /** One named cache: the stored response per request URL. */
  type Cache = map<string, Response>

  /** The worker's own cache, empty when it does not exist yet. */
  function Own(caches: map<string, Cache>): Cache {
    if CacheName in caches then caches[CacheName] else map[]
  }

  /** `caches.match(url)`, looked up in the worker's own cache. */
  function Lookup(caches: map<string, Cache>, url: string): (r: Option<Response>)
    ensures r.Some? <==> url in Own(caches)
    ensures r.Some? ==> r.value == Own(caches)[url]
  {
    if url in Own(caches) then Some(Own(caches)[url]) else None
  }

  /* ---------- install and activate ---------- */

  /** `cache.addAll`: all assets are stored if every one was fetched with an
      ok status, otherwise none is (the failure is swallowed). */
  function Installed(cache: Cache, fetchAsset: string -> Option<Response>): (r: Cache)
    ensures (forall a :: a in Assets ==> fetchAsset(a).Some? && 200 <= fetchAsset(a).value.status <= 299) ==>
      forall a :: a in Assets ==> a in r && r[a] == fetchAsset(a).value
    ensures !(forall a :: a in Assets ==> fetchAsset(a).Some? && 200 <= fetchAsset(a).value.status <= 299) ==> r == cache
    ensures forall u :: u in cache && u !in Assets ==> u in r && r[u] == cache[u]
  {
    var root := fetchAsset(Assets[0]);
    var index := fetchAsset(Assets[1]);
    if root.Some? && 200 <= root.value.status <= 299 && index.Some? && 200 <= index.value.status <= 299
    then cache[Assets[0] := root.value][Assets[1] := index.value]
    else cache
  }

  /** The caches `activate` keeps: only the worker's own. */
  function Pruned(caches: map<string, Cache>): (r: map<string, Cache>)
    ensures r.Keys == caches.Keys * {CacheName}
    ensures forall n :: n in r ==> r[n] == caches[n]
  {
    map n | n in caches && n == CacheName :: caches[n]
  }

  /* ---------- fetch ---------- */

  datatype FetchOutcome =
    | NotIntercepted
    | Respond(response: Option<Response>)

  /** The reply, the caches afterwards, and whether the network was asked. */
  datatype Fetched = Fetched(outcome: FetchOutcome, caches: map<string, Cache>, usedNetwork: bool)

  /** A network response worth storing: status 200 and not an error. */
  predicate Cacheable(r: Response) {
    r.status == 200 && r.kind != "error"
  }

  /** The fetch handler. `network` is what fetching the request gives, `None`
      when it fails. Non-GET requests go to the network untouched; a cached
      response is served without the network; otherwise the network response is
      served, and stored when cacheable; a failure is answered with the cached
      offline page, if any. */
  function FetchPolicy(caches: map<string, Cache>, req: Request, network: Option<Response>): (r: Fetched)
    ensures req.verb != "GET" ==> r == Fetched(NotIntercepted, caches, false)
    ensures req.verb == "GET" && Lookup(caches, req.url).Some? ==>
      r == Fetched(Respond(Lookup(caches, req.url)), caches, false)
    ensures req.verb == "GET" && Lookup(caches, req.url).None? ==>
      && r.usedNetwork
      && r.outcome == Respond(if network.Some? then network else Lookup(caches, OfflinePage))
      && r.caches == if network.Some? && Cacheable(network.value)
                     then caches[CacheName := Own(caches)[req.url := network.value]] else caches
  {
    if req.verb != "GET" then Fetched(NotIntercepted, caches, false)
    else
      match Lookup(caches, req.url)
      case Some(hit) => Fetched(Respond(Some(hit)), caches, false)
      case None =>
        match network
        case None => Fetched(Respond(Lookup(caches, OfflinePage)), caches, true)
        case Some(resp) =>
          if !Cacheable(resp) then Fetched(Respond(Some(resp)), caches, true)
          else Fetched(Respond(Some(resp)), caches[CacheName := Own(caches)[req.url := resp]], true)
  }

  /** Once a GET response has been stored, the same request is served from the
      cache, without the network, whatever the network would now say. */
  lemma StoredResponseIsServed(caches: map<string, Cache>, req: Request, first: Response, later: Option<Response>)
    requires req.verb == "GET" && Lookup(caches, req.url).None? && Cacheable(first)
    ensures var after := FetchPolicy(caches, req, Some(first)).caches;
      FetchPolicy(after, req, later) == Fetched(Respond(Some(first)), after, false)
  {
    var after := FetchPolicy(caches, req, Some(first)).caches;
    assert Own(after) == Own(caches)[req.url := first];
  }

  /* ---------- notifications ---------- */

  /** The data of a push: JSON (each field absent, `null` or a string) or text
      that is not JSON. */
  datatype PushPayload =
    | JsonPayload(title: Option<string>, body: Option<string>, icon: Option<string>, badge: Option<string>,
                  tag: Option<string>, data: Option<Data>)
    | TextPayload(text: string)

  datatype Action = Action(action: string, title: string)

  const PushActions: seq<Action> := [Action("open", "Open"), Action("close", "Close")]

  /** A notification as `showNotification` receives it. */
  datatype Shown = Shown(title: string, body: string, icon: string, badge: Option<string>,
                         tag: Option<string>, data: Option<Data>, actions: seq<Action>)

  /** The push handler: nothing without data; JSON fields default to the
      worker's title, body, icon, badge, tag and data and get the two actions;
      text that is not JSON is shown as the body under the default title. */
  function PushNotification(data: Option<PushPayload>): (r: Option<Shown>)
    ensures r.None? <==> data.None?
    ensures r.Some? ==> r.value.title != "" && r.value.icon != ""
    ensures data.Some? && data.value.JsonPayload? ==>
      && r.value.title == Or(data.value.title, DefaultTitle)
      && r.value.body == Or(data.value.body, DefaultPushBody)
      && r.value.icon == Or(data.value.icon, DefaultIcon)
      && r.value.badge == Some(Or(data.value.badge, DefaultBadge))
      && r.value.tag == Some(Or(data.value.tag, DefaultTag))
      && r.value.data == Some(if data.value.data.Some? then data.value.data.value else map[])
      && r.value.actions == PushActions
    ensures data.Some? && data.value.TextPayload? ==>
      r == Some(Shown(DefaultTitle, data.value.text, DefaultIcon, None, None, None, []))
  {
    match data
    case None => None
    case Some(JsonPayload(title, body, icon, badge, tag, d)) =>
      Some(Shown(Or(title, DefaultTitle), Or(body, DefaultPushBody), Or(icon, DefaultIcon), Some(Or(badge, DefaultBadge)),
                 Some(Or(tag, DefaultTag)), Some(if d.Some? then d.value else map[]), PushActions))
    case Some(TextPayload(text)) => Some(Shown(DefaultTitle, text, DefaultIcon, None, None, None, []))
  }

  /** The message handler: a `SEND_NOTIFICATION` message is shown as posted;
      any other message is ignored. */
  function MessageNotification(m: WorkerMessage): (r: Option<Shown>)
    ensures r.Some? <==> m.kind == SendNotificationType
    ensures r.Some? ==>
      && r.value.title == m.title && r.value.body == m.options.body && r.value.icon == m.options.icon
      && r.value.badge == Some(m.options.badge) && r.value.tag == Some(m.options.tag)
      && r.value.data == Some(m.options.data)
  {
    if m.kind == SendNotificationType
    then Some(Shown(m.title, m.options.body, m.options.icon, Some(m.options.badge), Some(m.options.tag), Some(m.options.data), []))
    else None
  }

  /** A notification the page hands to the worker is shown with exactly the
      options the page would have used itself. */
  lemma WorkerShowsWhatThePageSent(supported: bool, permission: Permission, answer: Permission, vapidKey: Option<string>,
                                   o: NotificationOptions)
    requires SendNotification(supported, permission, answer, vapidKey, true, o).ToWorker?
    ensures var d := SendNotification(supported, permission, answer, vapidKey, false, o);
      && d.Direct?
      && MessageNotification(SendNotification(supported, permission, answer, vapidKey, true, o).message) ==
         Some(Shown(d.title, d.options.body, d.options.icon, Some(d.options.badge), Some(d.options.tag), Some(d.options.data), []))
  {
  }

  /* ---------- notification clicks ---------- */

  /** A window client: its URL and whether it can be focused. */
  datatype Client = Client(url: string, focusable: bool)

  /** A window showing the app's root. */
  predicate IsAppWindow(c: Client) {
    c.url == "/" && c.focusable
  }

  /** The first app window in the list. */
  function FirstAppWindow(clients: seq<Client>): (r: Option<nat>)
    ensures r.Some? ==> r.value < |clients| && IsAppWindow(clients[r.value])
    ensures r.Some? ==> forall j :: 0 <= j < r.value ==> !IsAppWindow(clients[j])
    ensures r.None? ==> forall j :: 0 <= j < |clients| ==> !IsAppWindow(clients[j])
  {
    if clients == [] then None
    else if IsAppWindow(clients[0]) then Some(0)
    else match FirstAppWindow(clients[1..])
      case None => None
      case Some(i) => Some(i + 1)
  }

  /** The search loop over the client list. */
  method FindAppWindow(clients: seq<Client>) returns (r: Option<nat>)
    ensures r == FirstAppWindow(clients)
  {
    var i := 0;
    while i < |clients|
      invariant 0 <= i <= |clients|
      invariant forall j :: 0 <= j < i ==> !IsAppWindow(clients[j])
    {
      if IsAppWindow(clients[i]) {
        return Some(i);
      }
      i := i + 1;
    }
    return None;
  }

  /** What a click leads to: nothing, focusing a window (posting `OPEN_THREAD`
      with the thread first, if any), opening a window at a URL, or nothing
      because windows cannot be opened. */
  datatype ClickOutcome = Ignored | Focus(client: nat, openThread: Option<string>) | Open(url: string) | NoWindow

  /** The thread a notification's data names, if any. */
  function ThreadOf(data: Option<Data>): Option<string> {
    if data.Some? && "threadId" in data.value then data.value["threadId"] else None
  }

  /** The URL a click opens when no app window exists. */
  function OpenUrl(threadId: Option<string>): string {
    if Truthy(threadId) then "/home?thread=" + threadId.value else "/home"
  }

  /** The notification-click handler's choice. */
  function ClickTarget(action: string, data: Option<Data>, clients: seq<Client>, canOpen: bool): ClickOutcome {
    var threadId := ThreadOf(data);
    if action == "close" then Ignored
    else match FirstAppWindow(clients)
      case Some(i) => Focus(i, if Truthy(threadId) then Some(threadId.value) else None)
      case None => if canOpen then Open(OpenUrl(threadId)) else NoWindow
  }

  /** The click rules: "close" does nothing; otherwise the first app window is
      focused, told to open the thread exactly when there is one; with no app
      window, the thread's page (or the home page) is opened. */
  lemma ClickTargets(action: string, data: Option<Data>, clients: seq<Client>, canOpen: bool)
    ensures action == "close" <==> ClickTarget(action, data, clients, canOpen) == Ignored
    ensures var r := ClickTarget(action, data, clients, canOpen);
      r.Focus? ==> && r.client < |clients| && IsAppWindow(clients[r.client])
                   && (forall j :: 0 <= j < r.client ==> !IsAppWindow(clients[j]))
                   && (r.openThread.Some? <==> Truthy(ThreadOf(data)))
                   && (r.openThread.Some? ==> r.openThread == ThreadOf(data))
    ensures var r := ClickTarget(action, data, clients, canOpen);
      (r.Open? || r.NoWindow?) <==> action != "close" && forall j :: 0 <= j < |clients| ==> !IsAppWindow(clients[j])
    ensures var r := ClickTarget(action, data, clients, canOpen);
      r.Open? ==> canOpen && r.url == OpenUrl(ThreadOf(data))
  {
  }

  /** Clicking a new-message notification for a thread, with no app window
      open, opens that thread's page. */
  lemma NewMessageClickOpensThread(senderName: string, preview: string, avatar: Option<string>, threadId: string,
                                   clients: seq<Client>)
    requires threadId != ""
    requires forall j :: 0 <= j < |clients| ==> !IsAppWindow(clients[j])
    ensures var data := WithDefaults(NotifyNewMessage(senderName, preview, avatar, Some(threadId))).data;
      ClickTarget("open", Some(data), clients, true) == Open("/home?thread=" + threadId)
  {
    NewMessageShown(senderName, preview, avatar, Some(threadId));
  }

  /** The worker: its cache storage, the network requests it made, and the
      notifications it showed. */
  class Worker {
    var caches: map<string, Cache>
    var fetches: seq<string>
    var shown: seq<Shown>

    constructor (caches: map<string, Cache>)
      ensures this.caches == caches && fetches == [] && shown == []
    {
      this.caches := caches;
      fetches, shown := [], [];
    }

    /** `install`: open the own cache (creating it) and add the assets. */
    method Install(fetchAsset: string -> Option<Response>)
      modifies this
      ensures caches == old(caches)[CacheName := Installed(Own(old(caches)), fetchAsset)]
      ensures fetches == old(fetches) + Assets && shown == old(shown)
    {
      var cache := Own(caches);
      fetches := fetches + Assets;
      var root := fetchAsset(Assets[0]);
      var index := fetchAsset(Assets[1]);
      if root.Some? && 200 <= root.value.status <= 299 && index.Some? && 200 <= index.value.status <= 299 {
        cache := cache[Assets[0] := root.value][Assets[1] := index.value];
      }
      caches := caches[CacheName := cache];
    }

    /** `activate`: every cache whose name is not the worker's is deleted. */
    method Activate()
      modifies this
      ensures caches == Pruned(old(caches))
      ensures fetches == old(fetches) && shown == old(shown)
    {
      var names := caches.Keys;
      while names != {}
        invariant names <= old(caches).Keys
        invariant fetches == old(fetches) && shown == old(shown)
        invariant caches == map n | n in old(caches) && (n in names || n == CacheName) :: old(caches)[n]
        decreases names
      {
        var n :| n in names;
        if n != CacheName {
          caches := caches - {n};
        }
        names := names - {n};
      }
    }

    /** `fetch`: the reply and the new caches follow `FetchPolicy`, and the
        network is asked exactly when it says. */
    method HandleFetch(req: Request, network: Option<Response>) returns (outcome: FetchOutcome)
      modifies this
      ensures var f := FetchPolicy(old(caches), req, network);
        outcome == f.outcome && caches == f.caches && fetches == old(fetches) + (if f.usedNetwork then [req.url] else [])
      ensures shown == old(shown)
    {
      if req.verb != "GET" {
        return NotIntercepted;
      }
      var hit := Lookup(caches, req.url);
      if hit.Some? {
        return Respond(hit);
      }
      fetches := fetches + [req.url];
      if network.None? {
        return Respond(Lookup(caches, OfflinePage));
      }
      var resp := network.value;
      if resp.status != 200 || resp.kind == "error" {
        return Respond(Some(resp));
      }
      caches := caches[CacheName := Own(caches)[req.url := resp]];
      return Respond(Some(resp));
    }

    /** `push`: shows what `PushNotification` gives, if anything. */
    method HandlePush(data: Option<PushPayload>)
      modifies this
      ensures var n := PushNotification(data); shown == old(shown) + (if n.Some? then [n.value] else [])
      ensures caches == old(caches) && fetches == old(fetches)
    {
      var n := PushNotification(data);
      if n.Some? {
        shown := shown + [n.value];
      }
    }

    /** `message`: shows a posted `SEND_NOTIFICATION`. */
    method HandleMessage(m: WorkerMessage)
      modifies this
      ensures var n := MessageNotification(m); shown == old(shown) + (if n.Some? then [n.value] else [])
      ensures caches == old(caches) && fetches == old(fetches)
    {
      if m.kind == SendNotificationType {
        shown := shown + [Shown(m.title, m.options.body, m.options.icon, Some(m.options.badge), Some(m.options.tag),
                                Some(m.options.data), [])];
      }
    }

    /** `notificationclick`: the window chosen by searching the client list. */
    method HandleClick(action: string, data: Option<Data>, clients: seq<Client>, canOpen: bool) returns (r: ClickOutcome)
      ensures r == ClickTarget(action, data, clients, canOpen)
    {
      if action == "close" {
        return Ignored;
      }
      var threadId := ThreadOf(data);
      var found := FindAppWindow(clients);
      if found.Some? {
        return Focus(found.value, if Truthy(threadId) then Some(threadId.value) else None);
      }
      var url := if Truthy(threadId) then "/home?thread=" + threadId.value else "/home";
      return if canOpen then Open(url) else NoWindow;
    }
  }
}

=== FILE: text.dfy ===
/** The JavaScript string operations the client relies on: `trim`, `split` on one
    character, `substring(0, n)` and `repeat`, over strings as sequences of characters. */
module Text {

  /** The characters `String.prototype.trim` removes: ECMAScript's WhiteSpace
      (tab, vertical tab, form feed, space, no-break space, byte-order mark and the
      space separators of category Zs) and its LineTerminators (LF, CR, U+2028, U+2029). */
  predicate IsSpace(c: char) {
    || c == '\t' || c == '\n' || c == '\U{000B}' || c == '\U{000C}' || c == '\r'
    || c == ' ' || c == '\U{00A0}' || c == '\U{1680}'
    || ('\U{2000}' <= c <= '\U{200A}')
    || c == '\U{2028}' || c == '\U{2029}' || c == '\U{202F}' || c == '\U{205F}'
    || c == '\U{3000}' || c == '\U{FEFF}'
  }

  predicate AllSpace(s: string) {
    forall i :: 0 <= i < |s| ==> IsSpace(s[i])
  }

  /** `s` with its leading white space removed: nothing longer than `s`, not
      starting with white space, and everything cut off is white space. */
  function TrimStart(s: string): (r: string)
    ensures |r| <= |s|
    ensures r == [] || !IsSpace(r[0])
    ensures AllSpace(s[..|s| - |r|])
  {
    if |s| > 0 && IsSpace(s[0]) then
      var r := TrimStart(s[1..]);
      var cut := s[..|s| - |r|];
      forall i | 0 <= i < |cut| ensures IsSpace(cut[i]) {
        if i > 0 {
          assert cut[i] == s[1..][..|s| - 1 - |r|][i - 1];
        }
      }
      r
    else s
  }

  /** What `TrimStart` keeps is the tail of `s`. */
  lemma {:induction false} TrimStartIsSuffix(s: string)
    ensures TrimStart(s) == s[|s| - |TrimStart(s)|..]
    decreases |s|
  {
    if |s| > 0 && IsSpace(s[0]) {
      TrimStartIsSuffix(s[1..]);
    }
  }

  /** `s` with its trailing white space removed: nothing longer than `s`, not
      ending with white space, and everything cut off is white space. */
  function TrimEnd(s: string): (r: string)
    ensures |r| <= |s|
    ensures r == [] || !IsSpace(r[|r| - 1])
    ensures AllSpace(s[|r|..])
  {
    if |s| > 0 && IsSpace(s[|s| - 1]) then
      var r := TrimEnd(s[..|s| - 1]);
      var cut := s[|r|..];
      forall i | 0 <= i < |cut| ensures IsSpace(cut[i]) {
        if |r| + i < |s| - 1 {
          assert cut[i] == s[..|s| - 1][|r|..][i];
        }
      }
      r
    else s
  }

  /** What `TrimEnd` keeps is the head of `s`. */
  lemma {:induction false} TrimEndIsPrefix(s: string)
    ensures TrimEnd(s) == s[..|TrimEnd(s)|]
    decreases |s|
  {
    if |s| > 0 && IsSpace(s[|s| - 1]) {
      TrimEndIsPrefix(s[..|s| - 1]);
    }
  }

  /** `String.prototype.trim`. */
  function Trim(s: string): string {
    TrimEnd(TrimStart(s))
  }

  /** A string is falsy after trimming exactly when it is made of white space only. */
  lemma TrimEmptyIffAllSpace(s: string)
    ensures Trim(s) == [] <==> AllSpace(s)
  {
    var t := TrimStart(s);
    var k := |s| - |t|;
    TrimStartIsSuffix(s);
    assert s == s[..k] + t;
    if Trim(s) == [] {
      assert t == [];
      assert s == s[..k];
    }
  }

  /** Trimming leaves a string unchanged when it neither starts nor ends with white space. */
  lemma TrimNoEdgeSpace(s: string)
    requires s == [] || (!IsSpace(s[0]) && !IsSpace(s[|s| - 1]))
    ensures Trim(s) == s
  {
  }

  /** `s.split(sep)` for a one-character separator: the pieces between separators,
      always at least one, none containing the separator. */
  function SplitOn(s: string, sep: char): (parts: seq<string>)
    ensures |parts| >= 1
    decreases |s|
  {
    if |s| == 0 then [""]
    else
      var rest := SplitOn(s[1..], sep);
      if s[0] == sep then [""] + rest
      else [[s[0]] + rest[0]] + rest[1..]
  }

  /** No piece of a split contains the separator. */
  lemma {:induction false} SplitPiecesLackSep(s: string, sep: char)
    ensures forall i :: 0 <= i < |SplitOn(s, sep)| ==> sep !in SplitOn(s, sep)[i]
    decreases |s|
  {
    if |s| > 0 {
      SplitPiecesLackSep(s[1..], sep);
      var rest := SplitOn(s[1..], sep);
      if s[0] != sep {
        assert sep !in [s[0]] + rest[0];
        var parts := SplitOn(s, sep);
        forall i | 1 <= i < |parts| ensures sep !in parts[i] {
          assert parts[i] == rest[i];
        }
      }
    }
  }

  /** `parts.join(sep)`. */
  function Join(parts: seq<string>, sep: char): string
    requires |parts| >= 1
  {
    if |parts| == 1 then parts[0] else parts[0] + [sep] + Join(parts[1..], sep)
  }

  /** Joining the pieces of a split gives back the original string. */
  lemma {:induction false} JoinSplit(s: string, sep: char)
    ensures Join(SplitOn(s, sep), sep) == s
    decreases |s|
  {
    if |s| > 0 {
      JoinSplit(s[1..], sep);
      var rest := SplitOn(s[1..], sep);
      if s[0] != sep {
        var parts := SplitOn(s, sep);
        assert parts[0] == [s[0]] + rest[0];
        assert parts[1..] == rest[1..];
        if |rest| > 1 {
          assert Join(rest, sep) == rest[0] + [sep] + Join(rest[1..], sep);
        }
      }
    }
  }

  /** A string without the separator splits into itself alone. */
  lemma {:induction false} SplitWithoutSep(s: string, sep: char)
    requires sep !in s
    ensures SplitOn(s, sep) == [s]
    decreases |s|
  {
    if |s| > 0 {
      assert sep !in s[1..] by { forall i | 0 <= i < |s[1..]| ensures s[1..][i] != sep { assert s[1..][i] == s[i + 1]; } }
      SplitWithoutSep(s[1..], sep);
      assert [s[0]] + s[1..] == s;
    }
  }

  /** A first piece free of the separator is split off whole. */
  lemma {:induction false} SplitAtFirstSep(a: string, sep: char, b: string)
    requires sep !in a
    ensures SplitOn(a + [sep] + b, sep) == [a] + SplitOn(b, sep)
    decreases |a|
  {
    var s := a + [sep] + b;
    if |a| == 0 {
      assert s[1..] == b;
    } else {
      assert s[1..] == a[1..] + [sep] + b;
      assert sep !in a[1..] by { forall i | 0 <= i < |a[1..]| ensures a[1..][i] != sep { assert a[1..][i] == a[i + 1]; } }
      SplitAtFirstSep(a[1..], sep, b);
      assert [a[0]] + a[1..] == a;
    }
  }

  /** Splitting a join of separator-free pieces gives back the pieces. */
  lemma {:induction false} SplitJoin(parts: seq<string>, sep: char)
    requires |parts| >= 1
    requires forall p :: p in parts ==> sep !in p
    ensures SplitOn(Join(parts, sep), sep) == parts
    decreases |parts|
  {
    if |parts| == 1 {
      SplitWithoutSep(parts[0], sep);
    } else {
      assert parts[0] in parts;
      assert forall p :: p in parts[1..] ==> p in parts;
      SplitJoin(parts[1..], sep);
      SplitAtFirstSep(parts[0], sep, Join(parts[1..], sep));
      assert [parts[0]] + parts[1..] == parts;
    }
  }

  /** `s.substring(0, n)`: the first `n` characters, or all of `s` if it is shorter. */
  function Take(s: string, n: nat): (r: string)
    ensures |r| == if |s| <= n then |s| else n
    ensures r <= s
  {
    if |s| <= n then s else s[..n]
  }

  /** `c.repeat(n)` for a one-character string `c`. */
  function Repeat(c: char, n: nat): (r: string)
    ensures |r| == n
    ensures forall i :: 0 <= i < n ==> r[i] == c
  {
    if n == 0 then [] else Repeat(c, n - 1) + [c]
  }
}

=== FILE: user_context.dfy ===
/** The second session provider: it keeps its own user record under the same
    `networx_user` key and never touches the token keys. */
module UserContext {
  import opened Wrappers
  import opened LocalStore

  /** The provider's user record; an `id` of `""` stands for a record without one. */
  datatype Profile = Profile(id: string, name: Option<string>, email: string,
                             profileImage: Option<string>, token: Option<string>)

  /** What `setUser(u)` leaves in storage: a user is written under
      `networx_user`, no user removes that key alone. */
  function AfterSetUser(entries: map<string, string>, u: Option<Profile>, stringify: Profile -> string): (r: map<string, string>)
    ensures u.Some? ==> UserKey in r && r[UserKey] == stringify(u.value)
    ensures u.None? ==> UserKey !in r
    ensures forall k :: k != UserKey ==> (k in r <==> k in entries) && (k in r ==> r[k] == entries[k])
  {
    if u.Some? then entries[UserKey := stringify(u.value)] else entries - {UserKey}
  }

  /** The user the restore effect sets: the parsed entry when it is present and
      not empty; `None` from `parse` means `JSON.parse` threw. */
  function Restored(entries: map<string, string>, parse: string -> Option<Profile>): Option<Profile> {
    if UserKey in entries && entries[UserKey] != "" then parse(entries[UserKey]) else None
  }

  /** What `setUser` stores is what the next restore reads, when the record
      reads back as itself; after `setUser(null)` there is nothing to read. */
  lemma SetUserThenRestore(entries: map<string, string>, u: Option<Profile>,
                           stringify: Profile -> string, parse: string -> Option<Profile>)
    requires u.Some? ==> stringify(u.value) != "" && parse(stringify(u.value)) == u
    ensures Restored(AfterSetUser(entries, u, stringify), parse) == u
  {
  }

  class UserProvider {
    const store: Storage
    var user: Option<Profile>
    /** Where `window.location.href` points, once a handler has set it. */
    var location: Option<string>

    constructor (store: Storage)
      ensures this.store == store && user == None && location == None
    {
      this.store := store;
      user := None;
      location := None;
    }

    /** The restore effect on mount: storage is only read. `threw` reports the
        uncaught `JSON.parse` error on an unreadable entry, which sets no user. */
    method RestoreSession(parse: string -> Option<Profile>) returns (threw: bool)
      modifies this
      ensures location == old(location)
      ensures threw <==> UserKey in store.entries && store.entries[UserKey] != "" && parse(store.entries[UserKey]).None?
      ensures user == if Restored(store.entries, parse).Some? then Restored(store.entries, parse) else old(user)
    {
      var stored := store.GetItem(UserKey);
      threw := false;
      if stored.Some? && stored.value != "" {
        var parsed := parse(stored.value);
        if parsed.None? {
          threw := true;
          return;
        }
        user := parsed;
      }
    }

    /** `setUser`: storage follows `AfterSetUser`; the state is the argument. */
    method SetUser(u: Option<Profile>, stringify: Profile -> string)
      modifies this, store
      ensures store.entries == AfterSetUser(old(store.entries), u, stringify)
      ensures user == u && location == old(location)
    {
      if u.Some? {
        store.SetItem(UserKey, stringify(u.value));
      } else {
        store.RemoveItem(UserKey);
      }
      user := u;
    }

    /** `logout`: `setUser(null)`, then a redirect to the login page. */
    method Logout(stringify: Profile -> string)
      modifies this, store
      ensures store.entries == AfterSetUser(old(store.entries), None, stringify)
      ensures user == None && UserKey !in store.entries
      ensures location == Some("/login")
    {
      SetUser(None, stringify);
      location := Some("/login");
    }
  }
}

=== FILE: wrappers.dfy ===
/** Small failure-carrying datatypes shared by every component of the model. */
module Wrappers {

  /** A value that may be absent: JavaScript's `null`/`undefined` beside a real value. */
  datatype Option<+T> = None | Some(value: T) {

    /** The value, or `default` when there is none. */
    function GetOr(default: T): T {
      match this
      case Some(v) => v
      case None => default
    }
  }

  /** The outcome of an awaited call into code outside the model: either it threw
      (an `Error` with its message, caught by the caller's `catch`) or it answered. */
  datatype Reply<+T> = Threw(message: string) | Answered(answer: T)
}
